=== FILE: README.md ===
# DOW heartbeat plugin: a Dafny model of its synchronisation core

The DOW heartbeat plugin keeps a local copy of licensing and export-control
data on each Policy Controller (the client). On every heartbeat the client
sends the date of its last answered request. The server then decides, for
each of two data sets, whether the client is out of date:

- the **dictionary data**: per-user license and LOA grants read from the
  enrollment directory;
- the **LIC-LOA-ECCN data**: license/LOA to ECCN mappings with an effective
  and an expiry date, read from a CSV file.

The server rebuilds the serialised snapshot files that need it, and answers
with two YES/NO flags and an archive of the snapshot files. The client
unpacks the archive and replaces its USERLIC, USERLOA and LOADB tables.

This project models that core as pure functions over immutable data, and
proves properties of it:

| file | module | what it models |
|---|---|---|
| `freshness.dfy` | `Freshness` | `makeDecision`: the three-way send/rebuild decision |
| `validation.dfy` | `Validation` | `validate` with its license/LOA/ECCN limits, and `getPipeSeparatedStrings` |
| `records.dfy` | `Records` | the `HashMap<String,String>` records exchanged between the two sides |
| `dictionary.dfy` | `Dictionary` | the row logic of `getDictionaryData` |
| `dates.dfy` | `Dates` | the non-lenient `MM/dd/yyyy` reader and the `yyyy-MM-dd` writer the CSV loader uses |
| `csv_loader.dfy` | `CsvLoader` | the line logic of `getLicLoaEccnData` |
| `server_sync.dfy` | `ServerSync` | the flag, rebuild and archive logic of `prepareData` |
| `client_cache.dfy` | `ClientCache` | `prepareRequest`, `processResponse` and the client's initial request date |
| `end_to_end.dfy` | `Heartbeat` | first contact: what the client's tables hold after one heartbeat |
| `optional.dfy`, `seqs.dfy`, `digits.dfy`, `java_text.dfy` | | helpers: `Option`, filter/map, decimal numerals, and Java's `trim`, `toLowerCase`, `split` and `Integer.parseInt` |

How the model represents the system:

- **Times.** Times are integer milliseconds from the epoch, compared at
  full precision. A missing time is `None`, and `prepareData` defaults it to
  the epoch as the source does.
- **Files and the directory.** They are inputs. `ServerSync.Inputs` carries
  the modification times and the records that the directory and the CSV
  file would give at that moment. `ServerSync.Store` holds the two snapshot
  files, each possibly absent.
- **Database.** The client's HSQL database is three sequences of rows.
  `ClientCache.Db` is a parameter that says which `DELETE` and `INSERT`
  statements succeed, so every failure that depends only on the statement
  is covered without modelling SQL.
- **Duplicate key.** The CSV loader is parameterised by how it keys lines
  for the duplicate check. `Concatenated` is the loader as written.
  `Triple` is the corrected key (see Findings). The end-to-end lemma about
  LOADB holds for both keys.

In several places the code does something other than what its own
messages, comments and neighbouring code lead a reader to expect. The
model follows the code:

- **Missing user id.** `getDictionaryData` logs a row whose user id is
  null or empty as an error ("is NULL or empty",
  `DowHeartbeatPluginServer.java:292-302`), but it does not skip the row.
  Its license and LOA records are still emitted with that user id
  (`Dictionary.MissingUserIdKept`). The client tests the UID only for null
  (`DowHeartbeatPluginClient.java:335`, :348). So it skips the records of a
  null user id (`ClientCache.Routing`), but it stores the records of an
  empty one as rows whose user id is "".
- **LOA length in the dictionary.** The LOA loop calls `validateLicense`
  (`DowHeartbeatPluginServer.java:330`), although `validateLoa` exists
  (:212) and the CSV loader uses it (:472). So LOA elements from the
  directory are checked against the license limit (default 9), not the
  LOA limit (`Dictionary.LoaCheckedWithLicenseRule`).
- **Short CSV line.** A line with fewer than five comma-separated fields
  is not rejected like the other bad lines. Indexing its missing fields
  throws, and the catch at `DowHeartbeatPluginServer.java:628-631` logs
  that the whole file could not be read. The records accepted before that
  line are kept; every later line is lost (`CsvLoader.RunIgnoresRest`). A
  line with more than five fields is rejected and the read goes on.
- **Null answer.** The client's documentation of `processResponse`
  (`DowHeartbeatPluginClient.java:176-178`) reads a null answer as "the
  client is up to date". The server returns null only when neither flag is
  YES *and* both snapshot files already exist
  (`DowHeartbeatPluginServer.java:810-822`). A missing snapshot file is
  rebuilt, and that yields a non-null answer with two NO flags
  (`ServerSync.NullAnswer`).
- **Answer without an archive.** The client moves its request date to now
  (`DowHeartbeatPluginClient.java:222`) before it looks at the archive
  (:233). So a non-null answer whose archive is null still moves the date
  (`ClientCache.AnswerSetsDate`). Only a null answer leaves the date alone.
- **Duplicate key.** The "Duplicate record." check
  (`DowHeartbeatPluginServer.java:529-538`) looks up the concatenation of
  the three codes, not the triple, so two different lines can collide (see
  Findings).

## Model

| member | source | states |
|---|---|---|
| Freshness.MakeDecision | src/com/nextlabs/hb/DowHeartbeatPluginServer.java:154-186 | `makeDecision`; it has no contract of its own, and its meaning is stated by AllPresent, OneAbsent, TwoAbsent, SourceMonotone and ShiftInvariant below |
| Freshness.AllPresent | src/com/nextlabs/hb/DowHeartbeatPluginServer.java:155-165 | with all three times known, the decision is NONE iff the client's time is at least both others, SENDFILE iff the file is strictly newer than the client and not older than the source, UPDATEFILEANDSEND iff the source is strictly newest; it agrees with the reference `Latest` and the final fall-through is unreachable |
| Freshness.OneAbsent | src/com/nextlabs/hb/DowHeartbeatPluginServer.java:166-183 | with exactly one time missing, the remaining two are compared: no client time never gives NONE, no file time never gives SENDFILE, no source time never gives UPDATEFILEANDSEND, each with its iff condition |
| Freshness.TwoAbsent | src/com/nextlabs/hb/DowHeartbeatPluginServer.java:156-185 | when two or more times are missing the decision is NONE |
| Freshness.SourceMonotone | src/com/nextlabs/hb/DowHeartbeatPluginServer.java:155-185 | a later source time never turns a rebuild decision into something else |
| Freshness.ShiftInvariant | src/com/nextlabs/hb/DowHeartbeatPluginServer.java:155-185 | the decision depends only on the order of the times: shifting all of them by one amount keeps it |
| Validation.LengthLimit | src/com/nextlabs/hb/DowHeartbeatPluginServer.java:188-203 | the limit is the trimmed property parsed as an int when the property is set and parses, and the default otherwise (missing, empty or unparsable) |
| Validation.Validate | src/com/nextlabs/hb/DowHeartbeatPluginServer.java:188-208 | `validate`; it has no contract of its own, and its meaning is stated by LengthLimit, ValidateIgnoresPadding, BlankValuePasses and DefaultLimits |
| Validation.ValidateIgnoresPadding | src/com/nextlabs/hb/DowHeartbeatPluginServer.java:204-208 | blanks around a non-empty value never change whether it is valid: only the trimmed length is measured |
| Validation.BlankValuePasses | src/com/nextlabs/hb/DowHeartbeatPluginServer.java:204-208 | because the emptiness test comes before trimming, a value of blanks only is valid under every non-negative limit, while null and the empty string never are |
| Validation.ValidateLicense | src/com/nextlabs/hb/DowHeartbeatPluginServer.java:218-222 | `validateLicense`: the `license_length` limit with default 9; its meaning is stated by DefaultLimits and ConfiguredLimit |
| Validation.ValidateLoa | src/com/nextlabs/hb/DowHeartbeatPluginServer.java:212-216 | `validateLoa`: the `loa_length` limit with default 7; its meaning is stated by DefaultLimits and ConfiguredLimit |
| Validation.ValidateEccn | src/com/nextlabs/hb/DowHeartbeatPluginServer.java:224-228 | `validateEccn`: the `eccn_length` limit with default 10; its meaning is stated by DefaultLimits and ConfiguredLimit |
| Validation.DefaultLimits | src/com/nextlabs/hb/DowHeartbeatPluginServer.java:210-226 | with no limits configured, licenses may have 9, LOAs 7 and ECCNs 10 characters once trimmed, exactly |
| Validation.ConfiguredLimit | src/com/nextlabs/hb/DowHeartbeatPluginServer.java:193-197 | a configured limit written as a 32-bit decimal replaces the default |
| Validation.TrimNonEmpty | src/com/nextlabs/hb/DowHeartbeatPluginServer.java:234-238 | the element loop keeps the non-empty elements, in order, each trimmed, with the emptiness test applied before trimming |
| Validation.PipeSeparated | src/com/nextlabs/hb/DowHeartbeatPluginServer.java:230-241 | null gives no elements; otherwise the trimmed non-empty pieces between `\|` characters, in order, none containing a `\|` |
| Validation.SplitKeepsNonEmpty | src/com/nextlabs/hb/DowHeartbeatPluginServer.java:233-236 | Java's removal of trailing empty pieces never loses a non-empty piece, so the kept elements are those of the plain cut |
| Records.UserLicense | src/com/nextlabs/hb/DowHeartbeatPluginServer.java:311-314 | a license grant has exactly the keys UID and LICENSES, with the given user id and license |
| Records.UserLoa | src/com/nextlabs/hb/DowHeartbeatPluginServer.java:331-334 | an LOA grant has exactly the keys UID and LOAS, with the given user id and LOA |
| Records.LicLoaEccn | src/com/nextlabs/hb/DowHeartbeatPluginServer.java:619-625 | a mapping record has exactly the five keys LICENSE, LOA, ECCN, EFFECTIVE and EXPIRY, with the given values |
| Dictionary.LicenseRecords | src/com/nextlabs/hb/DowHeartbeatPluginServer.java:307-326 | one license record per element passing the rule, in element order, each carrying the row's user id |
| Dictionary.LoaRecords | src/com/nextlabs/hb/DowHeartbeatPluginServer.java:327-346 | one LOA record per element passing the rule, in element order, each carrying the row's user id |
| Dictionary.RowRecords | src/com/nextlabs/hb/DowHeartbeatPluginServer.java:292-346 | the records of one user row; it has no contract of its own, and RowFanOut states exactly which records it holds |
| Dictionary.DictionaryRecords | src/com/nextlabs/hb/DowHeartbeatPluginServer.java:243-393 | the record list of `getDictionaryData`; it has no contract of its own, and RowOf and RowContributes state that it holds exactly the rows' records |
| Dictionary.GetDictionaryData | src/com/nextlabs/hb/DowHeartbeatPluginServer.java:243-393 | `getDictionaryData`: the records and the run's report; their meaning is stated by RowOf, RowContributes, DictionaryReport and ErrorFlag |
| Dictionary.DictionaryReport | src/com/nextlabs/hb/DowHeartbeatPluginServer.java:290-357 | the run counts every row, and rows without error are among the rows with data, which are among all rows |
| Dictionary.RowFanOut | src/com/nextlabs/hb/DowHeartbeatPluginServer.java:292-346 | a record comes from a row iff it is a license grant of a license element passing the license rule or an LOA grant of an LOA element passing it, with the row's user id, null or not |
| Dictionary.RecordShape | src/com/nextlabs/hb/DowHeartbeatPluginServer.java:311-334 | every emitted record has the keys UID and LICENSES, or UID and LOAS, and a non-null value |
| Dictionary.RowOf | src/com/nextlabs/hb/DowHeartbeatPluginServer.java:288-357 | every emitted record comes from some row |
| Dictionary.RowContributes | src/com/nextlabs/hb/DowHeartbeatPluginServer.java:288-357 | every record of every row is emitted |
| Dictionary.ErrorFlag | src/com/nextlabs/hb/DowHeartbeatPluginServer.java:347-350 | the run reports an error iff some row had one |
| Dictionary.InvalidElementDropped | src/com/nextlabs/hb/DowHeartbeatPluginServer.java:307-326 | of a license value `good\|bad` whose second element fails the license rule, only the first element's record is emitted, and the row is marked erroneous |
| Dictionary.LoaCheckedWithLicenseRule | src/com/nextlabs/hb/DowHeartbeatPluginServer.java:327-330 | with no limits configured, any 8-character LOA is emitted although the LOA rule rejects it, because LOA elements are checked with the license rule |
| Dictionary.MissingUserIdKept | src/com/nextlabs/hb/DowHeartbeatPluginServer.java:292-302 | a row whose user id is null or empty is reported as erroneous, yet its valid license is still emitted, carrying that null or empty UID |
| Dates.DaysInMonth | src/com/nextlabs/hb/DowHeartbeatPluginServer.java:540-541 | months have 28 to 31 days, and 29 exactly for February of a leap year |
| Dates.ParseSourceDate | src/com/nextlabs/hb/DowHeartbeatPluginServer.java:540-560 | the non-lenient `MM/dd/yyyy` reader only returns dates that exist in the calendar |
| Dates.SourceRoundTrip | src/com/nextlabs/hb/DowHeartbeatPluginServer.java:540-551 | a date written as `MM/dd/yyyy` is read back as itself, whatever non-digit text follows it |
| Dates.SourceParseChecksCalendar | src/com/nextlabs/hb/DowHeartbeatPluginServer.java:540-541 | three numerals in `MM/dd/yyyy` form are read as a date exactly when that date exists |
| Dates.IsoRoundTrip | src/com/nextlabs/hb/DowHeartbeatPluginServer.java:542-546 | reading a `yyyy-MM-dd` text written by the loader gives the date back |
| Dates.IsoInjective | src/com/nextlabs/hb/DowHeartbeatPluginServer.java:542-546 | two dates are written the same way iff they are equal |
| Dates.IsoLowerCase | src/com/nextlabs/hb/DowHeartbeatPluginClient.java:423-427 | lower-casing a `yyyy-MM-dd` date leaves it unchanged |
| CsvLoader.FieldDefects | src/com/nextlabs/hb/DowHeartbeatPluginServer.java:447-612 | the field checks of one line; it has no contract of its own, and CleanRow states when it finds no defect |
| CsvLoader.RecordOf | src/com/nextlabs/hb/DowHeartbeatPluginServer.java:612-626 | the record a clean line becomes; it has no contract of its own. RecordDates states that its dates are the line's dates, RecordKeyOf that its codes give back the line's key, and RecordOfAdmissible that it is well formed |
| CsvLoader.Step | src/com/nextlabs/hb/DowHeartbeatPluginServer.java:446-626 | one turn of the line loop; it has no contract of its own, and RunComplete, RunIgnoresRest and RunMatchesExpected state what the loop of these steps computes |
| CsvLoader.Normalise | src/com/nextlabs/hb/DowHeartbeatPluginServer.java:484-496 | after normalisation license and LOA are either both empty or both non-empty, both empty exactly when both were; a non-empty value is kept and an empty one becomes "NULL" |
| CsvLoader.Run | src/com/nextlabs/hb/DowHeartbeatPluginServer.java:435-631 | the count of accepted lines equals the number of records and is at most the count of lines checked; an error is reported iff some checked line was rejected |
| CsvLoader.CompletePrefix | src/com/nextlabs/hb/DowHeartbeatPluginServer.java:446-459 | the lines before the first line with fewer than five fields are all complete, and the line at that position is short |
| CsvLoader.ParseCsv | src/com/nextlabs/hb/DowHeartbeatPluginServer.java:407-631 | no file, or a file with only a header, gives no records; otherwise the records are those the reference definition accepts among the complete lines before the first short one |
| CsvLoader.RunComplete | src/com/nextlabs/hb/DowHeartbeatPluginServer.java:435-631 | over complete lines the loop checks every line, remembers exactly the keys of the lines read, and returns the records of the reference definition |
| CsvLoader.RunStopped | src/com/nextlabs/hb/DowHeartbeatPluginServer.java:446-459 | the read ends early iff some line has fewer than five fields |
| CsvLoader.RunIgnoresRest | src/com/nextlabs/hb/DowHeartbeatPluginServer.java:628-631 | the lines after the first short one contribute nothing and are not counted |
| CsvLoader.RunMatchesExpected | src/com/nextlabs/hb/DowHeartbeatPluginServer.java:435-631 | the loop's records are the reference definition's, and it counts exactly the complete lines before the first short one |
| CsvLoader.CleanRow | src/com/nextlabs/hb/DowHeartbeatPluginServer.java:447-612 | a line has no field defect iff it has exactly five fields, not both license and LOA empty, a non-empty license and LOA within their limits, a valid ECCN, two dates that exist, and the effective date not after the expiry date |
| CsvLoader.RecordDates | src/com/nextlabs/hb/DowHeartbeatPluginServer.java:540-573 | the record's `yyyy-MM-dd` effective and expiry texts read back as exactly the dates the line's `MM/dd/yyyy` fields gave |
| CsvLoader.RecordOfAdmissible | src/com/nextlabs/hb/DowHeartbeatPluginServer.java:612-626 | the record of a clean line has the five keys, non-empty license and LOA that are "NULL" or within their limits, a valid ECCN, and two ISO dates in order |
| CsvLoader.AcceptedAdmissible | src/com/nextlabs/hb/DowHeartbeatPluginServer.java:612-626 | every accepted record is admissible in that sense |
| CsvLoader.RecordKeyOf | src/com/nextlabs/hb/DowHeartbeatPluginServer.java:529-538 | a record's codes give back the key its line was checked under |
| CsvLoader.AcceptedKeysRead | src/com/nextlabs/hb/DowHeartbeatPluginServer.java:529-538 | every accepted record's key is the key of some complete line read |
| CsvLoader.AcceptedDistinct | src/com/nextlabs/hb/DowHeartbeatPluginServer.java:529-538 | no two accepted records share a key |
| CsvLoader.AcceptsAfterOne | src/com/nextlabs/hb/DowHeartbeatPluginServer.java:529-538 | after one complete line, a complete line is accepted iff it has no field defect and its key differs from that line's |
| CsvLoader.LoaderOutput | src/com/nextlabs/hb/DowHeartbeatPluginServer.java:407-631 | every record the loader returns is admissible, and no two share a duplicate-check key |
| CsvLoader.ReadWrittenLine | src/com/nextlabs/hb/DowHeartbeatPluginServer.java:446-459 | a line joined from five trimmed comma-free fields, the last non-empty, is cut back into those five fields |
| CsvLoader.TwoLineFile | src/com/nextlabs/hb/DowHeartbeatPluginServer.java:435-626 | a header and two complete lines give the first line's record if it is clean, then the second's if it is accepted after the first |
| CsvLoader.ConcatenatedKeyCollides | src/com/nextlabs/hb/DowHeartbeatPluginServer.java:529-538 | as written: the lines "AB,C,…" and "A,BC,…" differ yet share a key, so the second is rejected as a duplicate and a file of the two clean lines yields one record |
| CsvLoader.SameKeyDropped | src/com/nextlabs/hb/DowHeartbeatPluginServer.java:529-538 | as written: of two complete lines with the same concatenated key the second is rejected, and a clean first line gives the only record |
| CsvLoader.TripleKeySeparates | src/com/nextlabs/hb/DowHeartbeatPluginServer.java:529-538 | corrected: the same two lines have different keys, the second is accepted iff its own fields are clean, and the file yields two records |
| CsvLoader.DistinctKeysBothKept | src/com/nextlabs/hb/DowHeartbeatPluginServer.java:529-538 | corrected: of two complete lines with different keys the second is accepted iff its own fields are clean, and two clean lines give both records in order |
| CsvLoader.TripleDuplicateIff | src/com/nextlabs/hb/DowHeartbeatPluginServer.java:529-538 | corrected: a line is a duplicate iff an earlier complete line has the same normalised license, LOA and ECCN |
| ServerSync.PrepareData | src/com/nextlabs/hb/DowHeartbeatPluginServer.java:713-888 | `prepareData`; it has no contract of its own, and its meaning is stated by NullAnswer, FlagsMeanNewer, RebuildWhenSourceNewer, SnapshotsKept and ArchiveMatchesFlags |
| ServerSync.NullAnswer | src/com/nextlabs/hb/DowHeartbeatPluginServer.java:810-822 | the answer is null iff both decisions are NONE and both snapshot files exist, and a null answer leaves the files alone |
| ServerSync.FlagsMeanNewer | src/com/nextlabs/hb/DowHeartbeatPluginServer.java:713-808 | each flag is YES iff the client's request is older than that data set's snapshot file or its source |
| ServerSync.RebuildWhenSourceNewer | src/com/nextlabs/hb/DowHeartbeatPluginServer.java:783-835 | when the source is strictly newest, or the snapshot is missing, non-empty fresh records replace the snapshot |
| ServerSync.SnapshotsKept | src/com/nextlabs/hb/DowHeartbeatPluginServer.java:824-866 | snapshot files are never deleted, and a snapshot changes only to a new one holding fresh non-empty records |
| ServerSync.SnapshotsHoldSources | src/com/nextlabs/hb/DowHeartbeatPluginServer.java:824-866 | a snapshot that already holds what its source gives now still holds it after the answer, and a missing one is built from non-empty source records |
| ServerSync.ArchiveMatchesFlags | src/com/nextlabs/hb/DowHeartbeatPluginServer.java:836-887 | a non-null answer carries an archive that holds a file iff its flag is YES and the file exists after the rebuilds, holding that snapshot's records, and nothing else |
| ServerSync.EarlyRequestGetsBoth | src/com/nextlabs/hb/DowHeartbeatPluginServer.java:713-808 | a request dated before both snapshot files, a missing file counting as written at the epoch, gets a non-null answer with both flags YES, whatever the sources' times |
| ServerSync.UpToDateGetsNo | src/com/nextlabs/hb/DowHeartbeatPluginServer.java:783-808 | a request dated at or after the dictionary snapshot and source gets NO for the dictionary |
| ClientCache.RequestCarriesLastAnswer | src/com/nextlabs/hb/DowHeartbeatPluginClient.java:141-233 | the next request carries the time of the last answer for this plugin, a null answer leaves it as it was, and no request is prepared under another plugin's name |
| ClientCache.ProcessResponse | src/com/nextlabs/hb/DowHeartbeatPluginClient.java:196-461 | `processResponse`; it has no contract of its own, and its meaning is stated by NullResponseNoOp, AnswerSetsDate, TablesChangeOnlyWhenFlagged and ClientMirrorsSnapshot |
| ClientCache.LicenseRow | src/com/nextlabs/hb/DowHeartbeatPluginClient.java:334-346 | the USERLIC row of a record; it has no contract of its own, and Routing states which records have one |
| ClientCache.LoaRow | src/com/nextlabs/hb/DowHeartbeatPluginClient.java:347-359 | the USERLOA row of a record; it has no contract of its own, and Routing states which records have one |
| ClientCache.LoadbRow | src/com/nextlabs/hb/DowHeartbeatPluginClient.java:421-427 | the LOADB row of a record; it has no contract of its own, and Heartbeat.LoadbRows states the row of every record the loader can produce |
| ClientCache.Inserted | src/com/nextlabs/hb/DowHeartbeatPluginClient.java:331-363 | the insert loop keeps at most one row per record; InsertedMembership and InsertedAll state exactly which rows, and in what order |
| ClientCache.RefreshDictionary | src/com/nextlabs/hb/DowHeartbeatPluginClient.java:319-371 | the dictionary branch; it has no contract of its own, and ClientMirrorsSnapshot states its result when both deletes succeed |
| ClientCache.RefreshLoa | src/com/nextlabs/hb/DowHeartbeatPluginClient.java:414-439 | the LOA branch; it has no contract of its own, and ClientMirrorsSnapshot states its result when the delete succeeds |
| ClientCache.NullResponseNoOp | src/com/nextlabs/hb/DowHeartbeatPluginClient.java:203-215 | an answer for another plugin, or a null answer, changes nothing, not even the request date |
| ClientCache.AnswerSetsDate | src/com/nextlabs/hb/DowHeartbeatPluginClient.java:222-233 | any non-null answer moves the request date to now, and one without an archive changes nothing else |
| ClientCache.TablesChangeOnlyWhenFlagged | src/com/nextlabs/hb/DowHeartbeatPluginClient.java:294-459 | the user tables change only under a YES dictionary flag with a non-empty dictionary file, LOADB only under a YES LOA flag with a non-empty LOA file, and each branch then gives the refresh of its own tables |
| ClientCache.InsertedMembership | src/com/nextlabs/hb/DowHeartbeatPluginClient.java:331-363 | a row is in the refreshed table iff some record is routed to it and its insert succeeds |
| ClientCache.InsertedAll | src/com/nextlabs/hb/DowHeartbeatPluginClient.java:421-432 | when every insert succeeds and every record has a row, the table holds those rows in record order |
| ClientCache.Routing | src/com/nextlabs/hb/DowHeartbeatPluginClient.java:333-359 | a license grant with a non-null user id (an empty one included) becomes a lower-cased USERLIC row, an LOA grant a USERLOA row, neither lands in the other table, and a grant with a null user id is skipped |
| ClientCache.ClientMirrorsSnapshot | src/com/nextlabs/hb/DowHeartbeatPluginClient.java:294-459 | after a YES flag with a non-empty snapshot and accepted deletes, the client's table holds the rows of that snapshot's records |
| ClientCache.FirstPollGetsBoth | src/com/nextlabs/hb/DowHeartbeatPluginClient.java:119 | the initial request date of 1 January 1900 gets both data sets from a server whose files date from after the epoch |
| Heartbeat.LoadbRows | src/com/nextlabs/hb/DowHeartbeatPluginClient.java:423-427 | every record the CSV loader can produce has a LOADB row: its codes lower-cased, its ISO dates unchanged |
| Heartbeat.FirstPollLoadsCsv | src/com/nextlabs/hb/DowHeartbeatPluginClient.java:398-432 | after the client's first heartbeat, when the CSV loader accepts at least one record, against a server whose snapshot files are missing or are dated at or after the epoch and hold what the sources give now (as start-up at DowHeartbeatPluginServer.java:94-111 writes them), and with a database that accepts the three deletes and every LOADB and USERLIC insert, LOADB holds one row per record the CSV loader accepts, in file order, with lower-cased codes and ISO dates, for the loader as written and for the corrected one |
| Heartbeat.FirstPollLoadsLicenses | src/com/nextlabs/hb/DowHeartbeatPluginClient.java:294-363 | after the client's first heartbeat, when the directory yields at least one dictionary record, and under the same conditions on the server's snapshots and the database, USERLIC holds exactly the lower-cased pairs of a non-null user id and a license element passing the license rule |
| Heartbeat.LicenseRowsOfUsers | src/com/nextlabs/hb/DowHeartbeatPluginServer.java:311-322 | a USERLIC row comes from some dictionary record iff it is the lower-cased pair of a user row's non-null user id and one of its license elements that passes the license rule |

## Left out

- Zipping, unzipping and serialisation (`Utils`, `zipFiles`): an archive is modelled as a map from file name to records, and reading a snapshot gives back the records written. A null archive arises only from an I/O failure in zipping; the client's handling of it is modelled (`ClientCache.AnswerSetsDate`).
- The directory API (`DictionaryData`), HSQL startup, `DatabaseHelper`, `PropertyLoader` and `PluginConstants`: their results are inputs (`Inputs`, `Properties`, `FieldNames`, `Db`).
- File-system times: `lastModified` and `new Date()` are inputs, not real clocks. The local time zone of `new Date(0, 0, 1)` is ignored; `InitialRequestDate` is 1900-01-01 UTC.
- `getDictionaryData` is called up to twice in one `prepareData` and `getLicLoaEccnData` likewise; the model assumes both calls see the same source, so one record sequence stands for both.
- Logging, the error-log files, timing, and the client's sanity COUNT queries: they decide nothing.
- `main` and the server's command-line test path.
- `SimpleDateFormat` details beyond the digits-and-separators form: no leading whitespace or signs, and no Julian calendar before 1582 (dates are proleptic Gregorian). A year 0 or below is refused.
- Dates.ParseSourceDate: field values are read as unbounded integers and the year has no upper bound. `SimpleDateFormat` keeps only the 32-bit `int` value of each numeral, so a month such as "4294967297" wraps to 1 and is accepted there but refused here. Its non-lenient calendar also refuses years above 292278994, which are accepted here.
- `toLowerCase` is modelled for ASCII letters only; other characters are left unchanged. Java's `toLowerCase()` also follows the default locale: under a Turkish locale 'I' becomes a dotless 'ı'. The model assumes a locale with the ordinary ASCII mapping.
- `Integer.parseInt` (`JavaText.ParseInt`) and the `SimpleDateFormat` reader (`Dates.ReadNumber`) accept the ASCII digits 0-9 only. Java also accepts the other Unicode decimal digits (through `Character.digit`); a value written with them is treated here as unparsable.
- A date written with more digits than its field is read by value, as `SimpleDateFormat` does for numerals within the `int` range. Its other leniencies in non-lenient mode are not modelled.
- ClientCache.Db: the oracle does not model SQL quoting (a value with a quote makes its insert fail, which the oracle may express) or constraints.
- ClientCache.ProcessResponse: a null HSQL connection is not modelled. `openConnection` returning null makes `createStatement` throw a `NullPointerException` (`DowHeartbeatPluginClient.java:321`, and :414 for LOADB), which the `catch (SQLException)` does not catch. That exception leaves `processResponse` altogether: the request date was already moved to now (:222), and a failure in the dictionary branch also skips the LOADB branch.
- The order in which the client interleaves USERLIC and USERLOA inserts: each table's rows keep the order of the records, which is what the model states.
- `getDictionaryData` dereferences the directory's user list before its null check, so a failing directory throws. The model takes the user list as given.
- ServerSync.PrepareData: times are compared in milliseconds. `prepareData` wraps every time in a `java.sql.Timestamp` (`DowHeartbeatPluginServer.java:716-766`), whose `java.util.Date` part holds whole seconds only, and `makeDecision` compares them through `Date.before` (:154-155). On Java 8 that comparison sees whole seconds, so times within the same second compare equal there, and a request at 10.200 s against a snapshot at 9.000 s and a directory at 10.300 s gets NONE there but UpdateFileAndSend here. On later Java versions `before` compares the full milliseconds, as the model does.
- ServerSync.PrepareData: exceptions in `prepareData` are not modelled. The handler `serviceHeartbeatRequest(String, Serializable)` (`DowHeartbeatPluginServer.java:897-910`) catches them and answers null. The newer handler `serviceHeartbeatRequest(String, String)` (:992-1003) has no catch, so the exception reaches its caller.

## Findings

| source | as written | input that shows it | evidently intended | confidence | as-written member | corrected member |
|---|---|---|---|---|---|---|
| src/com/nextlabs/hb/DowHeartbeatPluginServer.java:529-538 | a CSV line's duplicate key is the plain concatenation of its license, LOA and ECCN | two clean lines "AB,C,E1,01/01/2020,12/31/2020" and "A,BC,E1,01/01/2020,12/31/2020": different (license, LOA, ECCN) triples, same key "ABCE1", so the second is rejected as a duplicate | duplicates are detected on the (license, LOA, ECCN) triple | not executed | CsvLoader.ConcatenatedKeyCollides | CsvLoader.TripleKeySeparates |

=== FILE: client_cache.dfy ===
/** The client's cache refresh (`processResponse`): the Policy Controller
    keeps three tables (USERLIC, USERLOA, LOADB) and the date of its last
    answered request. A non-null answer moves that date to now, unpacks the
    archive over the previously extracted files and, for each flag that is
    YES, replaces the matching tables by the rows of the shipped records.

    The SQL engine is a parameter: `Db` says which deletes and inserts
    succeed. */
module ClientCache {
  import opened Optional
  import opened JavaText
  import opened Records
  import opened Freshness
  import opened ServerSync

  /** The plugin name both sides check before doing anything. */
  const PluginName: string := " DowHeartbeatPlugin"

  /** `new Date(0, 0, 1)`: 1 January 1900, in milliseconds from the epoch. */
  const InitialRequestDate: Time := -2208988800000

  /** A table row: its column values in order. */
  type Row = seq<string>

  datatype Table = UserLicTable | UserLoaTable | LoadbTable

  datatype Tables = Tables(userLic: seq<Row>, userLoa: seq<Row>, loadb: seq<Row>)

  /** Which statements the database accepts. */
  datatype Db = Db(deleteOk: Table -> bool, insertOk: (Table, Row) -> bool)

  /** The client's state: its tables, the files extracted so far, and the
      date it sends with its next request. */
  datatype ClientState = ClientState(tables: Tables, extracted: Archive, requestDate: Time)

  /** `prepareRequest`: nothing for another plugin's name, otherwise the
      request carrying the client's request date. */
  function PrepareRequest(st: ClientState, name: string): Option<Time> {
    if name != PluginName then None else Some(st.requestDate)
  }

  // ---------------------------------------------------------------------
  // Routing

  /** The USERLIC row of a dictionary record: it has a UID and LICENSES but
      no LOAS, both values non-null; the values are lower-cased. */
  function LicenseRow(r: Record): Option<Row> {
    if Loas !in r && Uid in r && Licenses in r then
      if Get(r, Uid).Some? && Get(r, Licenses).Some? then
        Some([ToLower(Get(r, Uid).value), ToLower(Get(r, Licenses).value)])
      else None
    else None
  }

  /** The USERLOA row of a dictionary record, symmetrically. */
  function LoaRow(r: Record): Option<Row> {
    if Licenses !in r && Loas in r && Uid in r then
      if Get(r, Uid).Some? && Get(r, Loas).Some? then
        Some([ToLower(Get(r, Uid).value), ToLower(Get(r, Loas).value)])
      else None
    else None
  }

  /** The LOADB row of a LIC-LOA-ECCN record: license, LOA, ECCN, expiry and
      effective date. Every value but the expiry is lower-cased, which fails
      on a missing value; a missing expiry is written as the text "null". */
  function LoadbRow(r: Record): Option<Row> {
    if Get(r, License).Some? && Get(r, Loa).Some? && Get(r, Eccn).Some? && Get(r, Effective).Some? then
      Some([ToLower(Get(r, License).value), ToLower(Get(r, Loa).value), ToLower(Get(r, Eccn).value),
            Get(r, Expiry).GetOr("null"), ToLower(Get(r, Effective).value)])
    else None
  }

  /** The insert loop of one table: a record with a row whose insert
      succeeds adds it; the others are skipped and the loop goes on. */
  function Inserted(db: Db, table: Table, route: Record -> Option<Row>, records: seq<Record>): (rows: seq<Row>)
    ensures |rows| <= |records|
  {
    if |records| == 0 then []
    else
      var rest := Inserted(db, table, route, records[1..]);
      var row := route(records[0]);
      if row.Some? && db.insertOk(table, row.value) then [row.value] + rest else rest
  }

  /** The dictionary branch: delete USERLOA, then USERLIC, then insert every
      record's row; a failed delete ends the branch. */
  function RefreshDictionary(db: Db, t: Tables, records: seq<Record>): Tables {
    if !db.deleteOk(UserLoaTable) then t
    else if !db.deleteOk(UserLicTable) then t.(userLoa := [])
    else t.(userLic := Inserted(db, UserLicTable, LicenseRow, records),
            userLoa := Inserted(db, UserLoaTable, LoaRow, records))
  }

  /** The LOA branch: delete LOADB, then insert every record's row. */
  function RefreshLoa(db: Db, t: Tables, records: seq<Record>): Tables {
    if !db.deleteOk(LoadbTable) then t
    else t.(loadb := Inserted(db, LoadbTable, LoadbRow, records))
  }

  /** The records an extracted file holds, when it is there. */
  function ReadData(extracted: Archive, name: string): seq<Record> {
    if name in extracted then extracted[name] else []
  }

  /** `processResponse`. */
  function ProcessResponse(db: Db, st: ClientState, name: string, response: Option<Response>, now: Time): ClientState {
    if name != PluginName || response.None? then st
    else
      var r := response.value;
      if r.data.None? then st.(requestDate := now)
      else
        var extracted := st.extracted + r.data.value;
        var dict := ReadData(extracted, DictDataFile);
        var loa := ReadData(extracted, LoaEccnFile);
        var t1 := if r.dictFile && |dict| > 0 then RefreshDictionary(db, st.tables, dict) else st.tables;
        var t2 := if r.loaFile && |loa| > 0 then RefreshLoa(db, t1, loa) else t1;
        ClientState(t2, extracted, now)
  }

  // ---------------------------------------------------------------------
  // Properties

  /** A null answer, or one for another plugin, changes nothing, not even
      the request date. */
  lemma NullResponseNoOp(db: Db, st: ClientState, name: string, response: Option<Response>, now: Time)
    requires response.None? || name != PluginName
    ensures ProcessResponse(db, st, name, response, now) == st
  {
  }

  /** Any answer for this plugin moves the request date to now; one without
      an archive changes nothing else. */
  lemma AnswerSetsDate(db: Db, st: ClientState, r: Response, now: Time)
    ensures ProcessResponse(db, st, PluginName, Some(r), now).requestDate == now
    ensures r.data.None? ==> ProcessResponse(db, st, PluginName, Some(r), now) == st.(requestDate := now)
  {
  }

  /** The request date is the time of the last answer: after any answer
      for this plugin the next request carries that answer's time, after a
      null answer it carries the same date as before, and a request under
      another plugin's name is never prepared. */
  lemma RequestCarriesLastAnswer(db: Db, st: ClientState, response: Option<Response>, now: Time, name: string)
    ensures response.Some? ==>
              PrepareRequest(ProcessResponse(db, st, PluginName, response, now), PluginName) == Some(now)
    ensures response.None? ==>
              PrepareRequest(ProcessResponse(db, st, PluginName, response, now), PluginName)
              == PrepareRequest(st, PluginName)
    ensures name != PluginName ==> PrepareRequest(st, name).None?
  {
  }

  /** The user tables change only under a YES dictionary flag with a
      non-empty dictionary file, and LOADB only under a YES LOA flag with a
      non-empty LOA file; the two branches never touch each other's tables. */
  lemma TablesChangeOnlyWhenFlagged(db: Db, st: ClientState, r: Response, now: Time)
    requires r.data.Some?
    ensures var after := ProcessResponse(db, st, PluginName, Some(r), now).tables;
            var extracted := st.extracted + r.data.value;
            && (!(r.dictFile && |ReadData(extracted, DictDataFile)| > 0) ==>
                  after.userLic == st.tables.userLic && after.userLoa == st.tables.userLoa)
            && (!(r.loaFile && |ReadData(extracted, LoaEccnFile)| > 0) ==> after.loadb == st.tables.loadb)
            && (r.loaFile && |ReadData(extracted, LoaEccnFile)| > 0 ==>
                  after.loadb == RefreshLoa(db, st.tables, ReadData(extracted, LoaEccnFile)).loadb)
            && (r.dictFile && |ReadData(extracted, DictDataFile)| > 0 ==>
                  after.userLic == RefreshDictionary(db, st.tables, ReadData(extracted, DictDataFile)).userLic
                  && after.userLoa == RefreshDictionary(db, st.tables, ReadData(extracted, DictDataFile)).userLoa)
  {
  }

  /** With both deletes accepted, the user tables hold exactly the
      successfully inserted rows of the records routed to them: the old
      rows are gone. */
  lemma {:induction false} InsertedMembership(db: Db, table: Table, route: Record -> Option<Row>, records: seq<Record>, row: Row)
    ensures row in Inserted(db, table, route, records) <==>
              (exists k :: 0 <= k < |records| && route(records[k]) == Some(row)) && db.insertOk(table, row)
  {
    if |records| > 0 {
      InsertedMembership(db, table, route, records[1..], row);
      if exists k :: 0 <= k < |records| && route(records[k]) == Some(row) {
        var k :| 0 <= k < |records| && route(records[k]) == Some(row);
        if k > 0 {
          assert records[1..][k - 1] == records[k];
        }
      }
      if exists k :: 0 <= k < |records[1..]| && route(records[1..][k]) == Some(row) {
        var k :| 0 <= k < |records[1..]| && route(records[1..][k]) == Some(row);
        assert records[1..][k] == records[k + 1];
      }
    }
  }

  /** When every insert succeeds, each record with a row contributes it,
      in record order. */
  lemma {:induction false} InsertedAll(db: Db, table: Table, route: Record -> Option<Row>, records: seq<Record>)
    requires forall row :: db.insertOk(table, row)
    requires forall k :: 0 <= k < |records| ==> route(records[k]).Some?
    ensures |Inserted(db, table, route, records)| == |records|
    ensures forall k :: 0 <= k < |records| ==> Inserted(db, table, route, records)[k] == route(records[k]).value
  {
    if |records| > 0 {
      var tail := records[1..];
      assert forall k :: 0 <= k < |tail| ==> route(tail[k]).Some? by {
        forall k | 0 <= k < |tail| ensures route(tail[k]).Some? {
          assert tail[k] == records[k + 1];
        }
      }
      InsertedAll(db, table, route, tail);
      var rest := Inserted(db, table, route, tail);
      var head := route(records[0]).value;
      assert db.insertOk(table, head);
      assert Inserted(db, table, route, records) == [head] + rest;
      forall k | 0 < k < |records| ensures ([head] + rest)[k] == route(records[k]).value {
        assert tail[k - 1] == records[k];
      }
    }
  }

  /** Dictionary records as the server builds them land in the right
      table: a license grant with a user id becomes a USERLIC row, an LOA
      grant a USERLOA row, and a grant without a user id is skipped. */
  lemma Routing(uid: Option<string>, value: string)
    ensures uid.Some? ==> LicenseRow(UserLicense(uid, value)) == Some([ToLower(uid.value), ToLower(value)])
    ensures uid.Some? ==> LoaRow(UserLoa(uid, value)) == Some([ToLower(uid.value), ToLower(value)])
    ensures LoaRow(UserLicense(uid, value)).None? && LicenseRow(UserLoa(uid, value)).None?
    ensures uid.None? ==> LicenseRow(UserLicense(uid, value)).None? && LoaRow(UserLoa(uid, value)).None?
  {
  }

  /** The client's tables mirror the server's snapshots: after a YES flag
      on an answer for which the stored snapshot is non-empty and the delete
      is accepted, the table holds the rows of that snapshot's records. */
  lemma ClientMirrorsSnapshot(db: Db, client: ClientState, store: Store, inputs: Inputs, now: Time)
    ensures var (after, answer) := PrepareData(store, inputs);
            var tables := ProcessResponse(db, client, PluginName, answer, now).tables;
            && (answer.Some? && answer.value.loaFile && after.loa.Some? && |after.loa.value.records| > 0
                && db.deleteOk(LoadbTable) ==>
                  tables.loadb == Inserted(db, LoadbTable, LoadbRow, after.loa.value.records))
            && (answer.Some? && answer.value.dictFile && after.dict.Some? && |after.dict.value.records| > 0
                && db.deleteOk(UserLoaTable) && db.deleteOk(UserLicTable) ==>
                  && tables.userLic == Inserted(db, UserLicTable, LicenseRow, after.dict.value.records)
                  && tables.userLoa == Inserted(db, UserLoaTable, LoaRow, after.dict.value.records))
  {
    var (after, answer) := PrepareData(store, inputs);
    if answer.Some? {
      ArchiveMatchesFlags(store, inputs);
    }
  }

  /** On its first poll the client is sent both data sets. */
  lemma FirstPollGetsBoth(client: ClientState, store: Store, inputs: Inputs)
    requires client.requestDate == InitialRequestDate
    requires inputs.requestDate == PrepareRequest(client, PluginName)
    requires store.dict.Some? ==> store.dict.value.writtenAt >= 0
    requires store.loa.Some? ==> store.loa.value.writtenAt >= 0
    ensures PrepareData(store, inputs).1.Some?
    ensures PrepareData(store, inputs).1.value.dictFile && PrepareData(store, inputs).1.value.loaFile
  {
    EarlyRequestGetsBoth(store, inputs);
  }
}

=== FILE: csv_loader.dfy ===
/** The LIC-LOA-ECCN loader: the server reads a comma-separated file whose
    first line is a header and whose other lines each give a license, an
    LOA, an ECCN, an effective date and an expiry date. Every line is
    checked; the clean ones become records for the client's LOADB table.
    A line with fewer than five fields ends the reading, keeping what was
    accepted before it.

    The duplicate check is parameterised: `Concatenated` keys a line by the
    plain concatenation of its three codes, as the loader does, and
    `Triple` keys it by the three codes kept apart. */
module CsvLoader {
  import opened Optional
  import opened Seqs
  import opened JavaText
  import opened Validation
  import opened Records
  import opened Dates

  /** What a line can be reported for; each one rejects the line. */
  datatype Defect =
    | WrongColumnCount
    | InvalidLicense
    | InvalidLoa
    | NoLicenseNorLoa
    | InvalidEccn
    | NoEffectiveDate
    | NoExpiryDate
    | Duplicate
    | BadEffectiveDate
    | BadExpiryDate
    | EffectiveAfterExpiry

  datatype KeyMode = Concatenated | Triple

  /** The identity under which a line is remembered for the duplicate check. */
  datatype DupKey = Flat(text: string) | Parts(license: string, loa: string, eccn: string)

  /** The five fields of a line, trimmed. */
  datatype Columns = Columns(license: string, loa: string, eccn: string, effective: string, expiry: string)

  const Separator: char := ','
  const NullText: string := "NULL"

  /** A line cut at its commas, as `line.split(",")` cuts it. */
  type Line = seq<string>

  function SplitLine(line: string): Line {
    Split(line, Separator)
  }

  /** A row that can be indexed up to its fifth field; any other row ends
      the reading with an index-out-of-bounds exception. */
  predicate Complete(line: Line) {
    |line| >= 5
  }

  predicate AllComplete(lines: seq<Line>) {
    forall i :: 0 <= i < |lines| ==> Complete(lines[i])
  }

  function RawColumns(line: Line): Columns
    requires Complete(line)
  {
    Columns(Trim(line[0]), Trim(line[1]), Trim(line[2]), Trim(line[3]), Trim(line[4]))
  }

  /** An empty license or LOA is replaced by "NULL", unless both are empty. */
  function Normalise(c: Columns): (n: Columns)
    ensures (n.license == "") <==> (n.loa == "")
    ensures n.license == "" <==> c.license == "" && c.loa == ""
    ensures c.license != "" ==> n.license == c.license
    ensures c.loa != "" ==> n.loa == c.loa
    ensures n.eccn == c.eccn && n.effective == c.effective && n.expiry == c.expiry
  {
    if c.license == "" && c.loa == "" then c
    else c.(license := if c.license == "" then NullText else c.license,
            loa := if c.loa == "" then NullText else c.loa)
  }

  function KeyOf(mode: KeyMode, c: Columns): DupKey {
    match mode
    case Concatenated => Flat(c.license + c.loa + c.eccn)
    case Triple => Parts(c.license, c.loa, c.eccn)
  }

  /** The key a line is remembered under: that of its normalised codes. */
  function LineKey(mode: KeyMode, line: Line): DupKey
    requires Complete(line)
  {
    KeyOf(mode, Normalise(RawColumns(line)))
  }

  /** Every defect of a line except `Duplicate`, which depends on the lines
      before it. */
  function FieldDefects(props: Properties, line: Line): set<Defect>
    requires Complete(line)
  {
    var c := RawColumns(line);
    var effective := ParseSourceDate(c.effective);
    var expiry := ParseSourceDate(c.expiry);
    (if |line| != 5 then {WrongColumnCount} else {})
    + (if c.license != "" && !ValidateLicense(props, c.license) then {InvalidLicense} else {})
    + (if c.loa != "" && !ValidateLoa(props, c.loa) then {InvalidLoa} else {})
    + (if c.license == "" && c.loa == "" then {NoLicenseNorLoa} else {})
    + (if !ValidateEccn(props, c.eccn) then {InvalidEccn} else {})
    + (if c.effective == "" then {NoEffectiveDate} else {})
    + (if c.expiry == "" then {NoExpiryDate} else {})
    + (if effective.None? then {BadEffectiveDate} else {})
    + (if expiry.None? then {BadExpiryDate} else {})
    + (if effective.Some? && expiry.Some? && After(effective.value, expiry.value)
       then {EffectiveAfterExpiry} else {})
  }

  /** The record a clean line becomes: normalised codes and the two dates
      written as `yyyy-MM-dd`. */
  function RecordOf(line: Line): Record
    requires Complete(line)
    requires ParseSourceDate(RawColumns(line).effective).Some?
    requires ParseSourceDate(RawColumns(line).expiry).Some?
  {
    var c := Normalise(RawColumns(line));
    LicLoaEccn(c.license, c.loa, c.eccn,
               FormatIsoDate(ParseSourceDate(c.effective).value),
               FormatIsoDate(ParseSourceDate(c.expiry).value))
  }

  /** The loader's running state: the keys met so far, the accepted records,
      the count of lines checked and of lines accepted, whether any line
      was rejected, and whether a short line ended the reading. */
  datatype Scan = Scan(seen: set<DupKey>, records: seq<Record>, total: nat, valid: nat,
                       errorFound: bool, stopped: bool)

  const Start: Scan := Scan({}, [], 0, 0, false, false)

  /** One line of the loop. The key is remembered even when the line is
      rejected for another reason. */
  function Step(props: Properties, mode: KeyMode, st: Scan, line: Line): Scan {
    if st.stopped then st
    else if !Complete(line) then st.(stopped := true)
    else
      var key := LineKey(mode, line);
      var defects := FieldDefects(props, line) + (if key in st.seen then {Duplicate} else {});
      var ok := defects == {};
      Scan(st.seen + {key},
           if ok then st.records + [RecordOf(line)] else st.records,
           st.total + 1,
           if ok then st.valid + 1 else st.valid,
           st.errorFound || !ok,
           false)
  }

  /** The loop over the lines after the header. */
  function Run(props: Properties, mode: KeyMode, lines: seq<Line>): (r: Scan)
    ensures r.valid == |r.records| <= r.total
    ensures r.errorFound <==> r.valid < r.total
  {
    if |lines| == 0 then Start
    else Step(props, mode, Run(props, mode, lines[..|lines| - 1]), lines[|lines| - 1])
  }

  /** A line is accepted after `earlier` when it is complete, has no field
      defect and no earlier line has its key. */
  predicate Accepts(props: Properties, mode: KeyMode, earlier: seq<Line>, line: Line) {
    && Complete(line)
    && FieldDefects(props, line) == {}
    && forall j :: 0 <= j < |earlier| && Complete(earlier[j]) ==> LineKey(mode, earlier[j]) != LineKey(mode, line)
  }

  /** Reference definition of the output over complete lines: the records of
      the accepted lines, in file order. */
  function Accepted(props: Properties, mode: KeyMode, lines: seq<Line>): seq<Record> {
    if |lines| == 0 then []
    else
      var earlier := lines[..|lines| - 1];
      var line := lines[|lines| - 1];
      Accepted(props, mode, earlier)
      + if Accepts(props, mode, earlier, line) then [RecordOf(line)] else []
  }

  /** The number of lines before the first short one. */
  function CompletePrefix(lines: seq<Line>): (n: nat)
    ensures n <= |lines|
    ensures AllComplete(lines[..n])
    ensures n < |lines| ==> !Complete(lines[n])
  {
    if AllComplete(lines) then
      assert lines[..|lines|] == lines;
      |lines|
    else
      var earlier := lines[..|lines| - 1];
      var n := CompletePrefix(earlier);
      assert earlier[..n] == lines[..n];
      n
  }

  /** What the loader should return for the lines after the header. */
  function Expected(props: Properties, mode: KeyMode, lines: seq<Line>): seq<Record> {
    Accepted(props, mode, lines[..CompletePrefix(lines)])
  }

  /** `getLicLoaEccnData`: no file (path unset or empty, or unreadable)
      gives no records; otherwise the header line is skipped and the
      others are checked. */
  function ParseCsv(props: Properties, mode: KeyMode, file: Option<seq<string>>): (records: seq<Record>)
    ensures file.None? ==> records == []
    ensures file.Some? && |file.value| <= 1 ==> records == []
    ensures file.Some? && |file.value| >= 1 ==> records == Expected(props, mode, Map(SplitLine, file.value[1..]))
  {
    match file
    case None => []
    case Some(lines) =>
      if |lines| == 0 then []
      else
        var rows := Map(SplitLine, lines[1..]);
        RunMatchesExpected(props, mode, rows);
        Run(props, mode, rows).records
  }

  // ---------------------------------------------------------------------
  // The loop against the reference definition

  /** One complete row read by a running loop. */
  lemma StepChecked(props: Properties, mode: KeyMode, st: Scan, line: Line)
    requires !st.stopped && Complete(line)
    ensures !Step(props, mode, st, line).stopped
    ensures Step(props, mode, st, line).total == st.total + 1
    ensures Step(props, mode, st, line).seen == st.seen + {LineKey(mode, line)}
    ensures Step(props, mode, st, line).records
         == st.records + if FieldDefects(props, line) == {} && LineKey(mode, line) !in st.seen
                         then [RecordOf(line)] else []
  {
  }

  /** The keys of the complete rows among `lines`. */
  ghost predicate KeyOfSome(mode: KeyMode, lines: seq<Line>, k: DupKey) {
    exists j :: 0 <= j < |lines| && Complete(lines[j]) && LineKey(mode, lines[j]) == k
  }

  lemma KeyOfSomeExtend(mode: KeyMode, lines: seq<Line>, k: DupKey)
    requires |lines| > 0 && Complete(lines[|lines| - 1])
    ensures KeyOfSome(mode, lines, k) <==>
              KeyOfSome(mode, lines[..|lines| - 1], k) || LineKey(mode, lines[|lines| - 1]) == k
  {
    var earlier := lines[..|lines| - 1];
    if KeyOfSome(mode, earlier, k) {
      KeyOfSomeGrow(mode, lines, k);
    }
    if LineKey(mode, lines[|lines| - 1]) == k {
      KeyOfSomeLast(mode, lines);
    }
    if KeyOfSome(mode, lines, k) && LineKey(mode, lines[|lines| - 1]) != k {
      KeyOfSomeShrink(mode, lines, k);
    }
  }

  lemma KeyOfSomeShrink(mode: KeyMode, lines: seq<Line>, k: DupKey)
    requires |lines| > 0 && KeyOfSome(mode, lines, k)
    requires Complete(lines[|lines| - 1]) ==> LineKey(mode, lines[|lines| - 1]) != k
    ensures KeyOfSome(mode, lines[..|lines| - 1], k)
  {
    var earlier := lines[..|lines| - 1];
    var j :| 0 <= j < |lines| && Complete(lines[j]) && LineKey(mode, lines[j]) == k;
    assert j < |earlier| && earlier[j] == lines[j];
  }

  lemma KeyOfSomeGrow(mode: KeyMode, lines: seq<Line>, k: DupKey)
    requires |lines| > 0 && KeyOfSome(mode, lines[..|lines| - 1], k)
    ensures KeyOfSome(mode, lines, k)
  {
    var earlier := lines[..|lines| - 1];
    var j :| 0 <= j < |earlier| && Complete(earlier[j]) && LineKey(mode, earlier[j]) == k;
    assert lines[j] == earlier[j];
  }

  lemma KeyOfSomeLast(mode: KeyMode, lines: seq<Line>)
    requires |lines| > 0 && Complete(lines[|lines| - 1])
    ensures KeyOfSome(mode, lines, LineKey(mode, lines[|lines| - 1]))
  {
    var j := |lines| - 1;
    assert Complete(lines[j]) && LineKey(mode, lines[j]) == LineKey(mode, lines[|lines| - 1]);
  }

  /** Over complete rows the loop never stops, checks every row, knows
      exactly the keys of the rows read, and outputs the accepted ones. */
  lemma {:induction false} RunComplete(props: Properties, mode: KeyMode, lines: seq<Line>)
    requires AllComplete(lines)
    ensures !Run(props, mode, lines).stopped
    ensures Run(props, mode, lines).total == |lines|
    ensures forall k :: k in Run(props, mode, lines).seen <==> KeyOfSome(mode, lines, k)
    ensures Run(props, mode, lines).records == Accepted(props, mode, lines)
  {
    if |lines| > 0 {
      var earlier := lines[..|lines| - 1];
      var line := lines[|lines| - 1];
      AllCompleteExtend(lines);
      RunComplete(props, mode, earlier);
      var st := Run(props, mode, earlier);
      var key := LineKey(mode, line);
      StepChecked(props, mode, st, line);
      assert (FieldDefects(props, line) == {} && key !in st.seen) <==> Accepts(props, mode, earlier, line) by {
        assert key in st.seen <==> KeyOfSome(mode, earlier, key);
      }
      forall k ensures k in Run(props, mode, lines).seen <==> KeyOfSome(mode, lines, k) {
        KeyOfSomeExtend(mode, lines, k);
      }
    }
  }

  /** The loop has stopped exactly when one of the rows read was short. */
  lemma {:induction false} RunStopped(props: Properties, mode: KeyMode, lines: seq<Line>)
    ensures Run(props, mode, lines).stopped <==> !AllComplete(lines)
  {
    if |lines| > 0 {
      var earlier := lines[..|lines| - 1];
      RunStopped(props, mode, earlier);
      AllCompleteExtend(lines);
    }
  }

  lemma AllCompleteExtend(lines: seq<Line>)
    requires |lines| > 0
    ensures AllComplete(lines) <==> AllComplete(lines[..|lines| - 1]) && Complete(lines[|lines| - 1])
  {
    var earlier := lines[..|lines| - 1];
    if AllComplete(earlier) && Complete(lines[|lines| - 1]) {
      forall i | 0 <= i < |lines| ensures Complete(lines[i]) {
        if i < |earlier| { assert lines[i] == earlier[i]; }
      }
    }
    if AllComplete(lines) {
      forall i | 0 <= i < |earlier| ensures Complete(earlier[i]) {
        assert lines[i] == earlier[i];
      }
    }
  }

  /** The lines after the first short one are never looked at. */
  lemma {:induction false} RunIgnoresRest(props: Properties, mode: KeyMode, lines: seq<Line>)
    ensures Run(props, mode, lines).records == Run(props, mode, lines[..CompletePrefix(lines)]).records
    ensures Run(props, mode, lines).total == CompletePrefix(lines)
  {
    var n := CompletePrefix(lines);
    RunComplete(props, mode, lines[..n]);
    if AllComplete(lines) {
      assert lines[..n] == lines;
    } else {
      var earlier := lines[..|lines| - 1];
      assert earlier[..n] == lines[..n];
      RunStopped(props, mode, earlier);
      if AllComplete(earlier) {
        assert n == |earlier|;
        assert earlier == lines[..n];
      } else {
        RunIgnoresRest(props, mode, earlier);
      }
    }
  }

  /** The loop returns exactly the reference output. */
  lemma RunMatchesExpected(props: Properties, mode: KeyMode, lines: seq<Line>)
    ensures Run(props, mode, lines).records == Expected(props, mode, lines)
    ensures Run(props, mode, lines).total == CompletePrefix(lines)
  {
    RunIgnoresRest(props, mode, lines);
    RunComplete(props, mode, lines[..CompletePrefix(lines)]);
  }

  // ---------------------------------------------------------------------
  // What the returned records satisfy

  /** A row is free of field defects exactly when it has five fields, a
      license or an LOA, every present code within its length limit, and
      two existing dates in order. */
  lemma CleanRow(props: Properties, line: Line)
    requires Complete(line)
    ensures var c := RawColumns(line);
            var effective := ParseSourceDate(c.effective);
            var expiry := ParseSourceDate(c.expiry);
            FieldDefects(props, line) == {} <==>
              && |line| == 5
              && (c.license != "" || c.loa != "")
              && (c.license == "" || ValidateLicense(props, c.license))
              && (c.loa == "" || ValidateLoa(props, c.loa))
              && ValidateEccn(props, c.eccn)
              && effective.Some? && expiry.Some?
              && !After(effective.value, expiry.value)
  {
    var c := RawColumns(line);
    if c.effective == "" {
      assert ParseSourceDate(c.effective).None?;
    }
    if c.expiry == "" {
      assert ParseSourceDate(c.expiry).None?;
    }
  }

  lemma CleanHasDates(props: Properties, line: Line)
    requires Complete(line) && FieldDefects(props, line) == {}
    ensures ParseSourceDate(RawColumns(line).effective).Some?
    ensures ParseSourceDate(RawColumns(line).expiry).Some?
  {
    assert BadEffectiveDate !in FieldDefects(props, line);
    assert BadExpiryDate !in FieldDefects(props, line);
  }

  /** What a returned record holds: the five columns; a license and an LOA
      that are "NULL" or within their limits and never both empty; an ECCN
      within its limit; two dates written exactly as `yyyy-MM-dd`, the
      effective one not after the expiry one. */
  predicate Admissible(props: Properties, r: Record) {
    && r.Keys == {License, Loa, Eccn, Effective, Expiry}
    && Get(r, License).Some? && Get(r, Loa).Some? && Get(r, Eccn).Some?
    && Get(r, Effective).Some? && Get(r, Expiry).Some?
    && var license := Get(r, License).value;
       var loa := Get(r, Loa).value;
       var effective := ParseIsoDate(Get(r, Effective).value);
       var expiry := ParseIsoDate(Get(r, Expiry).value);
       && license != "" && loa != ""
       && (license == NullText || ValidateLicense(props, license))
       && (loa == NullText || ValidateLoa(props, loa))
       && ValidateEccn(props, Get(r, Eccn).value)
       && effective.Some? && expiry.Some?
       && Get(r, Effective).value == FormatIsoDate(effective.value)
       && Get(r, Expiry).value == FormatIsoDate(expiry.value)
       && !After(effective.value, expiry.value)
  }

  /** The record keeps the line's dates: its `yyyy-MM-dd` texts read back
      as the dates the `MM/dd/yyyy` fields of the line gave. */
  lemma RecordDates(line: Line)
    requires Complete(line)
    requires ParseSourceDate(RawColumns(line).effective).Some?
    requires ParseSourceDate(RawColumns(line).expiry).Some?
    ensures ParseIsoDate(Get(RecordOf(line), Effective).value) == ParseSourceDate(RawColumns(line).effective)
    ensures ParseIsoDate(Get(RecordOf(line), Expiry).value) == ParseSourceDate(RawColumns(line).expiry)
  {
    var c := RawColumns(line);
    IsoRoundTrip(ParseSourceDate(c.effective).value);
    IsoRoundTrip(ParseSourceDate(c.expiry).value);
  }

  lemma RecordOfAdmissible(props: Properties, line: Line)
    requires Complete(line) && FieldDefects(props, line) == {}
    ensures Admissible(props, RecordOf(line))
  {
    CleanRow(props, line);
    var c := RawColumns(line);
    IsoRoundTrip(ParseSourceDate(c.effective).value);
    IsoRoundTrip(ParseSourceDate(c.expiry).value);
  }

  lemma {:induction false} AcceptedAdmissible(props: Properties, mode: KeyMode, lines: seq<Line>)
    ensures forall i :: 0 <= i < |Accepted(props, mode, lines)| ==> Admissible(props, Accepted(props, mode, lines)[i])
  {
    if |lines| > 0 {
      var earlier := lines[..|lines| - 1];
      var line := lines[|lines| - 1];
      AcceptedAdmissible(props, mode, earlier);
      var prev := Accepted(props, mode, earlier);
      var last := if Accepts(props, mode, earlier, line) then [RecordOf(line)] else [];
      assert Accepted(props, mode, lines) == prev + last;
      forall i | 0 <= i < |prev + last| ensures Admissible(props, (prev + last)[i]) {
        if i < |prev| {
          assert (prev + last)[i] == prev[i];
        } else {
          assert (prev + last)[i] == RecordOf(line);
          RecordOfAdmissible(props, line);
        }
      }
    }
  }

  /** The duplicate-check key of a returned record. */
  function RecordKey(mode: KeyMode, r: Record): DupKey {
    KeyOf(mode, Columns(Get(r, License).GetOr(""), Get(r, Loa).GetOr(""), Get(r, Eccn).GetOr(""), "", ""))
  }

  lemma RecordKeyOf(mode: KeyMode, line: Line)
    requires Complete(line)
    requires ParseSourceDate(RawColumns(line).effective).Some?
    requires ParseSourceDate(RawColumns(line).expiry).Some?
    ensures RecordKey(mode, RecordOf(line)) == LineKey(mode, line)
  {
  }

  /** Every returned record carries the key of some row read. */
  lemma {:induction false} AcceptedKeysRead(props: Properties, mode: KeyMode, lines: seq<Line>)
    ensures forall i :: 0 <= i < |Accepted(props, mode, lines)| ==>
              KeyOfSome(mode, lines, RecordKey(mode, Accepted(props, mode, lines)[i]))
  {
    if |lines| > 0 {
      var earlier := lines[..|lines| - 1];
      var line := lines[|lines| - 1];
      var before := Accepted(props, mode, earlier);
      var after := Accepted(props, mode, lines);
      AcceptedKeysRead(props, mode, earlier);
      forall i | 0 <= i < |after|
        ensures KeyOfSome(mode, lines, RecordKey(mode, after[i]))
      {
        if i < |before| {
          assert after[i] == before[i];
          KeyOfSomeGrow(mode, lines, RecordKey(mode, before[i]));
        } else {
          RecordKeyOf(mode, line);
          KeyOfSomeLast(mode, lines);
        }
      }
    }
  }

  /** No two returned records share a key. */
  lemma {:induction false} AcceptedDistinct(props: Properties, mode: KeyMode, lines: seq<Line>)
    ensures forall i, j :: 0 <= i < j < |Accepted(props, mode, lines)| ==>
              RecordKey(mode, Accepted(props, mode, lines)[i]) != RecordKey(mode, Accepted(props, mode, lines)[j])
  {
    if |lines| > 0 {
      var earlier := lines[..|lines| - 1];
      var line := lines[|lines| - 1];
      AcceptedDistinct(props, mode, earlier);
      if Accepts(props, mode, earlier, line) {
        AcceptedNewKey(props, mode, earlier, line);
        DistinctAppend(mode, Accepted(props, mode, earlier), RecordOf(line));
      }
    }
  }

  /** A line accepted after `earlier` has a key no record accepted from
      `earlier` has. */
  lemma AcceptedNewKey(props: Properties, mode: KeyMode, earlier: seq<Line>, line: Line)
    requires Accepts(props, mode, earlier, line)
    ensures forall i :: 0 <= i < |Accepted(props, mode, earlier)| ==>
              RecordKey(mode, Accepted(props, mode, earlier)[i]) != RecordKey(mode, RecordOf(line))
  {
    var before := Accepted(props, mode, earlier);
    AcceptedKeysRead(props, mode, earlier);
    RecordKeyOf(mode, line);
    forall i | 0 <= i < |before|
      ensures RecordKey(mode, before[i]) != RecordKey(mode, RecordOf(line))
    {
      var k := RecordKey(mode, before[i]);
      var j :| 0 <= j < |earlier| && Complete(earlier[j]) && LineKey(mode, earlier[j]) == k;
    }
  }

  /** Appending a record whose key no earlier record has keeps the keys
      pairwise distinct. */
  lemma DistinctAppend(mode: KeyMode, before: seq<Record>, r: Record)
    requires forall i, j :: 0 <= i < j < |before| ==> RecordKey(mode, before[i]) != RecordKey(mode, before[j])
    requires forall i :: 0 <= i < |before| ==> RecordKey(mode, before[i]) != RecordKey(mode, r)
    ensures forall i, j :: 0 <= i < j < |before + [r]| ==>
              RecordKey(mode, (before + [r])[i]) != RecordKey(mode, (before + [r])[j])
  {
    var after := before + [r];
    forall i, j | 0 <= i < j < |after|
      ensures RecordKey(mode, after[i]) != RecordKey(mode, after[j])
    {
      assert after[i] == before[i];
      if j < |before| {
        assert after[j] == before[j];
      }
    }
  }

  /** The loader returns only admissible records, no two with one key. */
  lemma LoaderOutput(props: Properties, mode: KeyMode, file: Option<seq<string>>)
    ensures forall i :: 0 <= i < |ParseCsv(props, mode, file)| ==> Admissible(props, ParseCsv(props, mode, file)[i])
    ensures forall i, j :: 0 <= i < j < |ParseCsv(props, mode, file)| ==>
              RecordKey(mode, ParseCsv(props, mode, file)[i]) != RecordKey(mode, ParseCsv(props, mode, file)[j])
  {
    if file.Some? && |file.value| >= 1 {
      var rows := Map(SplitLine, file.value[1..]);
      AcceptedAdmissible(props, mode, rows[..CompletePrefix(rows)]);
      AcceptedDistinct(props, mode, rows[..CompletePrefix(rows)]);
    }
  }

  // ---------------------------------------------------------------------
  // The concatenated duplicate key

  function Fields(c: Columns): Line {
    [c.license, c.loa, c.eccn, c.effective, c.expiry]
  }

  /** A field that needs no trimming and holds no comma. */
  predicate Plain(field: string) {
    Separator !in field && Trim(field) == field
  }

  /** A line written from trimmed, comma-free columns with an expiry is read
      back as those columns. */
  lemma ReadWrittenLine(c: Columns)
    requires Plain(c.license) && Plain(c.loa) && Plain(c.eccn) && Plain(c.effective) && Plain(c.expiry)
    requires c.expiry != ""
    ensures SplitLine(Join(Fields(c), Separator)) == Fields(c)
    ensures Complete(Fields(c)) && |Fields(c)| == 5
    ensures RawColumns(Fields(c)) == c
  {
    var f := Fields(c);
    SplitJoin(f, Separator);
    assert Trim(f[0]) == f[0] && Trim(f[1]) == f[1] && Trim(f[2]) == f[2];
    assert Trim(f[3]) == f[3] && Trim(f[4]) == f[4];
  }

  /** The two-line file of the finding: licenses "AB" and "A", LOAs "C" and
      "BC", and otherwise the same fields. */
  function CollidingFile(header: string, eccn: string, effective: string, expiry: string): seq<string> {
    [header,
     Join(Fields(Columns("AB", "C", eccn, effective, expiry)), Separator),
     Join(Fields(Columns("A", "BC", eccn, effective, expiry)), Separator)]
  }

  /** Both lines of the colliding file read back as their columns. */
  lemma CollidingRows(header: string, eccn: string, effective: string, expiry: string)
    requires Separator !in eccn && Separator !in effective && Separator !in expiry
    requires Trim(eccn) == eccn && Trim(effective) == effective && Trim(expiry) == expiry
    requires expiry != ""
    ensures var first := Columns("AB", "C", eccn, effective, expiry);
            var second := Columns("A", "BC", eccn, effective, expiry);
            && Map(SplitLine, CollidingFile(header, eccn, effective, expiry)[1..]) == [Fields(first), Fields(second)]
            && Complete(Fields(first)) && RawColumns(Fields(first)) == first
            && Complete(Fields(second)) && RawColumns(Fields(second)) == second
  {
    var first := Columns("AB", "C", eccn, effective, expiry);
    var second := Columns("A", "BC", eccn, effective, expiry);
    PlainCodes();
    ReadWrittenLine(first);
    ReadWrittenLine(second);
  }

  lemma PlainCodes()
    ensures Plain("AB") && Plain("C") && Plain("A") && Plain("BC")
  {
    TrimNoBlankEnds("AB");
    TrimNoBlankEnds("C");
    TrimNoBlankEnds("A");
    TrimNoBlankEnds("BC");
  }

  /** A file of a header and two complete lines gives the first line's
      record if it is clean, then the second's if it is clean and keyed
      apart from the first. */
  lemma TwoLineFile(props: Properties, mode: KeyMode, file: seq<string>, first: Line, second: Line)
    requires |file| == 3 && Map(SplitLine, file[1..]) == [first, second]
    requires Complete(first) && Complete(second)
    ensures ParseCsv(props, mode, Some(file))
         == (if FieldDefects(props, first) == {} then [RecordOf(first)] else [])
            + (if Accepts(props, mode, [first], second) then [RecordOf(second)] else [])
  {
    var rows := [first, second];
    assert ParseCsv(props, mode, Some(file)) == Expected(props, mode, rows);
    assert Expected(props, mode, rows) == Accepted(props, mode, rows) by {
      assert AllComplete(rows);
      assert rows[..CompletePrefix(rows)] == rows;
    }
    assert Accepted(props, mode, rows)
        == Accepted(props, mode, [first]) + if Accepts(props, mode, [first], second) then [RecordOf(second)] else [] by {
      assert rows[..1] == [first];
    }
    OneLine(props, mode, first);
  }

  lemma OneLine(props: Properties, mode: KeyMode, line: Line)
    requires Complete(line)
    ensures Accepted(props, mode, [line]) == if FieldDefects(props, line) == {} then [RecordOf(line)] else []
  {
    assert [line][..0] == [] && [line][0] == line;
    assert Accepts(props, mode, [], line) <==> FieldDefects(props, line) == {};
  }

  /** As written: rows with licenses "AB" and "A" and LOAs "C" and "BC" are
      different, yet their concatenated keys agree, so the second is
      rejected as a duplicate of the first; of two clean such lines the
      loader returns one record. */
  lemma ConcatenatedKeyCollides(props: Properties, header: string, eccn: string, effective: string, expiry: string)
    requires Separator !in eccn && Separator !in effective && Separator !in expiry
    requires Trim(eccn) == eccn && Trim(effective) == effective && Trim(expiry) == expiry
    requires expiry != ""
    ensures var first := Fields(Columns("AB", "C", eccn, effective, expiry));
            var second := Fields(Columns("A", "BC", eccn, effective, expiry));
            && Map(SplitLine, CollidingFile(header, eccn, effective, expiry)[1..]) == [first, second]
            && Normalise(RawColumns(first)) != Normalise(RawColumns(second))
            && LineKey(Concatenated, first) == LineKey(Concatenated, second)
            && !Accepts(props, Concatenated, [first], second)
            && (FieldDefects(props, first) == {} ==>
                  ParseCsv(props, Concatenated, Some(CollidingFile(header, eccn, effective, expiry))) == [RecordOf(first)])
  {
    CollidingRows(header, eccn, effective, expiry);
    var first := Columns("AB", "C", eccn, effective, expiry);
    var second := Columns("A", "BC", eccn, effective, expiry);
    assert Normalise(first) != Normalise(second) by {
      assert Normalise(first).license == "AB" && Normalise(second).license == "A";
    }
    ConcatenationsAgree(eccn);
    SameKeyDropped(props, CollidingFile(header, eccn, effective, expiry), Fields(first), Fields(second));
  }

  /** The concatenated key of the two colliding lines is "ABC" + ECCN. */
  lemma ConcatenationsAgree(eccn: string)
    ensures "AB" + "C" + eccn == "A" + "BC" + eccn
  {
    assert "AB" + "C" == "A" + "BC";
  }

  /** Of a two-line file whose lines have the same key, the second line is
      rejected, and a clean first line gives the only record. */
  lemma SameKeyDropped(props: Properties, file: seq<string>, first: Line, second: Line)
    requires |file| == 3 && Map(SplitLine, file[1..]) == [first, second]
    requires Complete(first) && Complete(second)
    requires LineKey(Concatenated, first) == LineKey(Concatenated, second)
    ensures !Accepts(props, Concatenated, [first], second)
    ensures FieldDefects(props, first) == {} ==> ParseCsv(props, Concatenated, Some(file)) == [RecordOf(first)]
  {
    AcceptsAfterOne(props, Concatenated, first, second);
    TwoLineFile(props, Concatenated, file, first, second);
  }

  /** Corrected: keyed by the three codes, the second line of the same file
      is judged on its own fields only, and two clean lines give two
      records. */
  lemma TripleKeySeparates(props: Properties, header: string, eccn: string, effective: string, expiry: string)
    requires Separator !in eccn && Separator !in effective && Separator !in expiry
    requires Trim(eccn) == eccn && Trim(effective) == effective && Trim(expiry) == expiry
    requires expiry != ""
    ensures var first := Fields(Columns("AB", "C", eccn, effective, expiry));
            var second := Fields(Columns("A", "BC", eccn, effective, expiry));
            && Map(SplitLine, CollidingFile(header, eccn, effective, expiry)[1..]) == [first, second]
            && LineKey(Triple, first) != LineKey(Triple, second)
            && (Accepts(props, Triple, [first], second) <==> FieldDefects(props, second) == {})
            && (FieldDefects(props, first) == {} && FieldDefects(props, second) == {} ==>
                  ParseCsv(props, Triple, Some(CollidingFile(header, eccn, effective, expiry)))
                  == [RecordOf(first), RecordOf(second)])
  {
    CollidingRows(header, eccn, effective, expiry);
    var first := Columns("AB", "C", eccn, effective, expiry);
    var second := Columns("A", "BC", eccn, effective, expiry);
    DistinctKeysBothKept(props, CollidingFile(header, eccn, effective, expiry), Fields(first), Fields(second));
  }

  /** Of a two-line file whose lines have different keys, the second line
      is judged on its own fields only. */
  lemma DistinctKeysBothKept(props: Properties, file: seq<string>, first: Line, second: Line)
    requires |file| == 3 && Map(SplitLine, file[1..]) == [first, second]
    requires Complete(first) && Complete(second)
    requires LineKey(Triple, first) != LineKey(Triple, second)
    ensures Accepts(props, Triple, [first], second) <==> FieldDefects(props, second) == {}
    ensures FieldDefects(props, first) == {} && FieldDefects(props, second) == {} ==>
              ParseCsv(props, Triple, Some(file)) == [RecordOf(first), RecordOf(second)]
  {
    AcceptsAfterOne(props, Triple, first, second);
    TwoLineFile(props, Triple, file, first, second);
    if FieldDefects(props, first) == {} && FieldDefects(props, second) == {} {
      CleanHasDates(props, first);
      CleanHasDates(props, second);
      JoinPair(RecordOf(first), RecordOf(second));
    }
  }

  /** After a single complete line, a complete line is accepted exactly
      when it is clean and keyed apart from that line. */
  lemma AcceptsAfterOne(props: Properties, mode: KeyMode, first: Line, second: Line)
    requires Complete(first) && Complete(second)
    ensures Accepts(props, mode, [first], second)
        <==> FieldDefects(props, second) == {} && LineKey(mode, first) != LineKey(mode, second)
  {
    assert [first][0] == first;
  }

  /** Keyed by the three codes, a row is a duplicate exactly when an
      earlier complete row has the same normalised license, LOA and ECCN. */
  lemma TripleDuplicateIff(earlier: seq<Line>, line: Line)
    requires Complete(line)
    ensures KeyOfSome(Triple, earlier, LineKey(Triple, line)) <==>
              exists j :: 0 <= j < |earlier| && Complete(earlier[j]) && SameCodes(earlier[j], line)
  {
    if KeyOfSome(Triple, earlier, LineKey(Triple, line)) {
      var j :| 0 <= j < |earlier| && Complete(earlier[j]) && LineKey(Triple, earlier[j]) == LineKey(Triple, line);
      assert SameCodes(earlier[j], line);
    }
    if exists j :: 0 <= j < |earlier| && Complete(earlier[j]) && SameCodes(earlier[j], line) {
      var j :| 0 <= j < |earlier| && Complete(earlier[j]) && SameCodes(earlier[j], line);
      assert LineKey(Triple, earlier[j]) == LineKey(Triple, line);
    }
  }

  /** Two rows with the same normalised license, LOA and ECCN. */
  predicate SameCodes(a: Line, b: Line)
    requires Complete(a) && Complete(b)
  {
    var x := Normalise(RawColumns(a));
    var y := Normalise(RawColumns(b));
    x.license == y.license && x.loa == y.loa && x.eccn == y.eccn
  }
}

=== FILE: dates.dfy ===
/** Calendar dates as the CSV loader reads them (`MM/dd/yyyy`, non-lenient)
    and writes them for the client database (`yyyy-MM-dd`). Only the day
    matters: both formats carry no time of day, so two parsed dates compare
    as their (year, month, day) triples do. */
module Dates {
  import opened Optional
  import opened Digits
  import opened JavaText

  datatype Date = Date(year: int, month: int, day: int)

  predicate IsLeap(year: int) {
    (year % 4 == 0 && year % 100 != 0) || year % 400 == 0
  }

  function DaysInMonth(year: int, month: int): (n: int)
    requires 1 <= month <= 12
    ensures 28 <= n <= 31
    ensures n == 29 <==> month == 2 && IsLeap(year)
  {
    if month == 2 then (if IsLeap(year) then 29 else 28)
    else if month == 4 || month == 6 || month == 9 || month == 11 then 30
    else 31
  }

  /** The dates a non-lenient calendar accepts: a year of the Christian era,
      a month of the year and a day of that month. */
  predicate Valid(d: Date) {
    1 <= d.year && 1 <= d.month <= 12 && 1 <= d.day <= DaysInMonth(d.year, d.month)
  }

  /** `a` comes strictly after `b` (`Date.after` on two midnights). */
  predicate After(a: Date, b: Date) {
    a.year > b.year
    || (a.year == b.year && a.month > b.month)
    || (a.year == b.year && a.month == b.month && a.day > b.day)
  }

  /** The number of leading decimal digits of `s`. */
  function DigitPrefix(s: string): (k: nat)
    ensures k <= |s|
    ensures AllDigits(s[..k])
    ensures k == |s| || !IsDigit(s[k])
  {
    if |s| == 0 || !IsDigit(s[0]) then 0
    else
      var k := 1 + DigitPrefix(s[1..]);
      assert s[..k] == [s[0]] + s[1..][..k - 1];
      k
  }

  /** A numeric date field: a non-empty run of digits, read as a number,
      and the text after it. */
  function ReadNumber(s: string): (r: Option<(nat, string)>)
    ensures r.Some? <==> |s| > 0 && IsDigit(s[0])
    ensures r.Some? ==> |r.value.1| < |s| && r.value.1 == s[|s| - |r.value.1|..]
  {
    var k := DigitPrefix(s);
    if k == 0 then None else Some((ValueOf(s[..k]), s[k..]))
  }

  /** A numeric field followed by the separator `sep`, and the text after
      the separator. */
  function ReadThenSeparator(s: string, sep: char): Option<(nat, string)> {
    var f := ReadNumber(s);
    if f.None? then None
    else
      var rest := f.value.1;
      if |rest| == 0 || rest[0] != sep then None else Some((f.value.0, rest[1..]))
  }

  /** Three numeric fields separated by `sep`; whatever follows the third is
      ignored, as `DateFormat.parse(String)` ignores it. */
  function ReadFields(s: string, sep: char): Option<(nat, nat, nat)> {
    var f1 := ReadThenSeparator(s, sep);
    if f1.None? then None
    else
      var f2 := ReadThenSeparator(f1.value.1, sep);
      if f2.None? then None
      else
        var f3 := ReadNumber(f2.value.1);
        if f3.None? then None else Some((f1.value.0, f2.value.0, f3.value.0))
  }

  /** `new SimpleDateFormat("MM/dd/yyyy")` with leniency off: month, day and
      year (the year taken literally, whatever its number of digits), and
      the date must exist. */
  function ParseSourceDate(s: string): (r: Option<Date>)
    ensures r.Some? ==> Valid(r.value)
  {
    match ReadFields(s, '/')
    case None => None
    case Some((m, d, y)) =>
      var date := Date(y, m, d);
      if Valid(date) then Some(date) else None
  }

  /** `new SimpleDateFormat("MM/dd/yyyy").format(d)`. */
  function FormatSourceDate(d: Date): string
    requires Valid(d)
  {
    Pad(d.month, 2) + "/" + Pad(d.day, 2) + "/" + Pad(d.year, 4)
  }

  /** `new SimpleDateFormat("yyyy-MM-dd").format(d)`, the form the client
      database receives. */
  function FormatIsoDate(d: Date): (s: string)
    requires Valid(d)
    ensures |s| >= 10
  {
    Pad(d.year, 4) + "-" + Pad(d.month, 2) + "-" + Pad(d.day, 2)
  }

  /** Reading `yyyy-MM-dd` back, the inverse of `FormatIsoDate`. */
  function ParseIsoDate(s: string): (r: Option<Date>)
    ensures r.Some? ==> Valid(r.value)
  {
    match ReadFields(s, '-')
    case None => None
    case Some((y, m, d)) =>
      var date := Date(y, m, d);
      if Valid(date) then Some(date) else None
  }

  /** A digit run is read up to the first character that is not a digit. */
  lemma {:induction false} DigitPrefixOf(a: string, t: string)
    requires AllDigits(a)
    requires |t| == 0 || !IsDigit(t[0])
    ensures DigitPrefix(a + t) == |a|
    decreases |a|
  {
    if |a| > 0 {
      assert (a + t)[1..] == a[1..] + t;
      DigitPrefixOf(a[1..], t);
    } else {
      assert a + t == t;
    }
  }

  lemma ReadPadded(n: nat, w: nat, t: string)
    requires |t| == 0 || !IsDigit(t[0])
    ensures ReadNumber(Pad(n, w) + t) == Some((n, t))
  {
    var p := Pad(n, w);
    DigitPrefixOf(p, t);
    assert (p + t)[..|p|] == p;
    assert (p + t)[|p|..] == t;
    ValueOfPad(n, w);
  }

  lemma ReadPaddedThenSeparator(n: nat, w: nat, sep: char, t: string)
    requires !IsDigit(sep)
    ensures ReadThenSeparator(Pad(n, w) + [sep] + t, sep) == Some((n, t))
  {
    var t' := [sep] + t;
    assert Pad(n, w) + [sep] + t == Pad(n, w) + t';
    ReadPadded(n, w, t');
    assert t'[1..] == t;
  }

  lemma ReadFieldsOf(s: string, sep: char, a: nat, t1: string, b: nat, t2: string, c: nat, rest: string)
    requires ReadThenSeparator(s, sep) == Some((a, t1))
    requires ReadThenSeparator(t1, sep) == Some((b, t2))
    requires ReadNumber(t2) == Some((c, rest))
    ensures ReadFields(s, sep) == Some((a, b, c))
  {
  }

  lemma Regroup(x: string, y: string, z: string, sep: char, rest: string)
    ensures x + [sep] + y + [sep] + z + rest == x + [sep] + (y + [sep] + (z + rest))
  {
  }

  lemma ReadThreeFields(a: nat, wa: nat, b: nat, wb: nat, c: nat, wc: nat, sep: char, rest: string)
    requires !IsDigit(sep)
    requires |rest| == 0 || !IsDigit(rest[0])
    ensures ReadFields(Pad(a, wa) + [sep] + Pad(b, wb) + [sep] + Pad(c, wc) + rest, sep)
         == Some((a, b, c))
  {
    var t2 := Pad(c, wc) + rest;
    var t1 := Pad(b, wb) + [sep] + t2;
    var s := Pad(a, wa) + [sep] + Pad(b, wb) + [sep] + Pad(c, wc) + rest;
    Regroup(Pad(a, wa), Pad(b, wb), Pad(c, wc), sep, rest);
    ReadPaddedThenSeparator(a, wa, sep, t1);
    ReadPaddedThenSeparator(b, wb, sep, t2);
    ReadPadded(c, wc, rest);
    ReadFieldsOf(s, sep, a, t1, b, t2, c, rest);
  }

  /** Formatting a date as `MM/dd/yyyy` and parsing it gives the date back,
      whatever non-digit text follows it on the line. */
  lemma SourceRoundTrip(d: Date, rest: string)
    requires Valid(d)
    requires |rest| == 0 || !IsDigit(rest[0])
    ensures ParseSourceDate(FormatSourceDate(d) + rest) == Some(d)
  {
    ReadThreeFields(d.month, 2, d.day, 2, d.year, 4, '/', rest);
    assert FormatSourceDate(d) + rest
        == Pad(d.month, 2) + ['/'] + Pad(d.day, 2) + ['/'] + Pad(d.year, 4) + rest;
  }

  /** The `yyyy-MM-dd` text determines the date. */
  lemma IsoRoundTrip(d: Date)
    requires Valid(d)
    ensures ParseIsoDate(FormatIsoDate(d)) == Some(d)
  {
    var s := FormatIsoDate(d);
    assert ReadFields(s, '-') == Some((d.year, d.month, d.day)) by {
      ReadThreeFields(d.year, 4, d.month, 2, d.day, 2, '-', "");
      assert s == Pad(d.year, 4) + ['-'] + Pad(d.month, 2) + ['-'] + Pad(d.day, 2) + "";
    }
  }

  /** Different dates are written differently. */
  lemma IsoInjective(a: Date, b: Date)
    requires Valid(a) && Valid(b)
    ensures FormatIsoDate(a) == FormatIsoDate(b) <==> a == b
  {
    IsoRoundTrip(a);
    IsoRoundTrip(b);
  }

  /** The client lower-cases the date columns; `yyyy-MM-dd` has no letters,
      so the stored text is the formatted date unchanged. */
  lemma IsoLowerCase(d: Date)
    requires Valid(d)
    ensures ToLower(FormatIsoDate(d)) == FormatIsoDate(d)
  {
    var year, month, day := Pad(d.year, 4), Pad(d.month, 2), Pad(d.day, 2);
    LowerKeepsDigits(year);
    LowerKeepsDigits(month);
    LowerKeepsDigits(day);
    LowerKeepsJoin(year, "-");
    LowerKeepsJoin(year + "-", month);
    LowerKeepsJoin(year + "-" + month, "-");
    LowerKeepsJoin(year + "-" + month + "-", day);
  }

  lemma LowerKeepsDigits(s: string)
    requires AllDigits(s)
    ensures ToLower(s) == s
  {
  }

  lemma LowerKeepsJoin(a: string, b: string)
    requires ToLower(a) == a && ToLower(b) == b
    ensures ToLower(a + b) == a + b
  {
    assert forall i :: 0 <= i < |a| ==> LowerChar(a[i]) == a[i];
    assert forall i :: 0 <= i < |b| ==> LowerChar(b[i]) == b[i];
  }

  /** Any three numerals written as `MM/dd/yyyy` are read back as a date
      exactly when that date exists: no thirteenth month, no 29 February in
      a common year. */
  lemma SourceParseChecksCalendar(m: nat, d: nat, y: nat, rest: string)
    requires |rest| == 0 || !IsDigit(rest[0])
    ensures ParseSourceDate(Pad(m, 2) + "/" + Pad(d, 2) + "/" + Pad(y, 4) + rest)
         == if Valid(Date(y, m, d)) then Some(Date(y, m, d)) else None
  {
    var s := Pad(m, 2) + "/" + Pad(d, 2) + "/" + Pad(y, 4) + rest;
    assert ReadFields(s, '/') == Some((m, d, y)) by {
      ReadThreeFields(m, 2, d, 2, y, 4, '/', rest);
      assert s == Pad(m, 2) + ['/'] + Pad(d, 2) + ['/'] + Pad(y, 4) + rest;
    }
  }

  /** A month numbered 13 is always refused. */
  lemma NoThirteenthMonth(d: nat, y: nat)
    ensures ParseSourceDate(Pad(13, 2) + "/" + Pad(d, 2) + "/" + Pad(y, 4)).None?
  {
    SourceParseChecksCalendar(13, d, y, "");
    assert Pad(13, 2) + "/" + Pad(d, 2) + "/" + Pad(y, 4) + ""
        == Pad(13, 2) + "/" + Pad(d, 2) + "/" + Pad(y, 4);
  }
}

=== FILE: dictionary.dfy ===
/** The enrollment pipeline (`getDictionaryData`): each user row read from
    the enrollment directory fans out into one `{UID, LICENSES}` record per
    valid license and one `{UID, LOAS}` record per valid LOA. */
module Dictionary {
  import opened Optional
  import opened Seqs
  import opened Validation
  import opened Records
  import opened JavaText

  /** The configured field names of the user id, LOA and license attributes
      (`userid_dict_field`, `loa_dict_field`, `license_dict_field`); a
      missing setting is a null name, which finds no field. */
  datatype FieldNames = FieldNames(userId: Option<string>, loa: Option<string>, license: Option<string>)

  /** One row from the directory: attribute name to value. Null attribute
      values are never stored in a row. */
  type UserRow = map<string, string>

  function Field(row: UserRow, name: Option<string>): Option<string> {
    if name.Some? && name.value in row then Some(row[name.value]) else None
  }

  /** Non-null and non-empty. */
  predicate Present(v: Option<string>) {
    v.Some? && v.value != ""
  }

  /** The element-validity rule applied to both licenses and LOAs here: the
      license length rule, as in the source (LOAs are not checked against
      the LOA limit in this pipeline). */
  function LicenseRule(props: Properties): string -> bool {
    e => ValidateLicense(props, e)
  }

  /** The elements of a multi-valued field, only when the field is present. */
  function Elements(v: Option<string>): seq<string> {
    if Present(v) then PipeSeparated(v) else []
  }

  /** The license loop of one row: one record per element passing the rule,
      in element order. */
  function LicenseRecords(valid: string -> bool, uid: Option<string>, elements: seq<string>): (rs: seq<Record>)
    ensures |rs| == |Filter(valid, elements)|
    ensures forall k :: 0 <= k < |rs| ==> rs[k] == UserLicense(uid, Filter(valid, elements)[k])
  {
    if |elements| == 0 then []
    else if valid(elements[0]) then
      [UserLicense(uid, elements[0])] + LicenseRecords(valid, uid, elements[1..])
    else LicenseRecords(valid, uid, elements[1..])
  }

  /** The LOA loop of one row, checked with the license rule. */
  function LoaRecords(valid: string -> bool, uid: Option<string>, elements: seq<string>): (rs: seq<Record>)
    ensures |rs| == |Filter(valid, elements)|
    ensures forall k :: 0 <= k < |rs| ==> rs[k] == UserLoa(uid, Filter(valid, elements)[k])
  {
    if |elements| == 0 then []
    else if valid(elements[0]) then
      [UserLoa(uid, elements[0])] + LoaRecords(valid, uid, elements[1..])
    else LoaRecords(valid, uid, elements[1..])
  }

  /** All records one row contributes: its license records, then its LOA
      records. A missing user id does not stop the row: its records carry
      a null UID. */
  function RowRecords(props: Properties, names: FieldNames, row: UserRow): seq<Record> {
    var uid := Field(row, names.userId);
    LicenseRecords(LicenseRule(props), uid, Elements(Field(row, names.license)))
      + LoaRecords(LicenseRule(props), uid, Elements(Field(row, names.loa)))
  }

  /** The row is logged as erroneous: no usable user id, or some license or
      LOA element failed validation. */
  predicate RowHasError(props: Properties, names: FieldNames, row: UserRow) {
    || !Present(Field(row, names.userId))
    || (exists e :: e in Elements(Field(row, names.license)) && !LicenseRule(props)(e))
    || (exists e :: e in Elements(Field(row, names.loa)) && !LicenseRule(props)(e))
  }

  /** The row has a license or an LOA value at all. */
  predicate RowHasData(names: FieldNames, row: UserRow) {
    Present(Field(row, names.license)) || Present(Field(row, names.loa))
  }

  /** The run's counters: rows seen, rows with data, rows with data and no
      error, and whether any row was in error (otherwise the log ends with
      "No error found."). */
  datatype Report = Report(total: nat, withData: nat, clean: nat, errorFound: bool)

  datatype Extract = Extract(records: seq<Record>, report: Report)

  /** The records of `getDictionaryData`: the rows' records in row order. */
  function DictionaryRecords(props: Properties, names: FieldNames, rows: seq<UserRow>): seq<Record> {
    Flatten(RowParts(props, names, rows))
  }

  /** Each row's records, row by row. */
  function RowParts(props: Properties, names: FieldNames, rows: seq<UserRow>): (parts: seq<seq<Record>>)
    ensures |parts| == |rows|
    ensures forall i :: 0 <= i < |rows| ==> parts[i] == RowRecords(props, names, rows[i])
  {
    Map(row => RowRecords(props, names, row), rows)
  }

  /** The counters of `getDictionaryData`. */
  function DictionaryReport(props: Properties, names: FieldNames, rows: seq<UserRow>): (rep: Report)
    ensures rep.total == |rows|
    ensures rep.clean <= rep.withData <= rep.total
  {
    if |rows| == 0 then Report(0, 0, 0, false)
    else
      var rest := DictionaryReport(props, names, rows[1..]);
      var hasData := RowHasData(names, rows[0]);
      var hasError := RowHasError(props, names, rows[0]);
      Report(
        rest.total + 1,
        rest.withData + (if hasData then 1 else 0),
        rest.clean + (if hasData && !hasError then 1 else 0),
        rest.errorFound || hasError)
  }

  /** `getDictionaryData` over the rows the directory returned. */
  function GetDictionaryData(props: Properties, names: FieldNames, rows: seq<UserRow>): Extract {
    Extract(DictionaryRecords(props, names, rows), DictionaryReport(props, names, rows))
  }

  /** Per row: a `{UID, LICENSES}` record for exactly the license elements
      that pass the license rule, a `{UID, LOAS}` record for exactly the LOA
      elements that pass it, and nothing else; every record carries the
      row's user id, null or not. */
  lemma RowFanOut(props: Properties, names: FieldNames, row: UserRow, r: Record)
    ensures var uid := Field(row, names.userId);
      r in RowRecords(props, names, row) <==>
        (exists e :: e in Elements(Field(row, names.license)) && LicenseRule(props)(e) && r == UserLicense(uid, e))
        || (exists e :: e in Elements(Field(row, names.loa)) && LicenseRule(props)(e) && r == UserLoa(uid, e))
  {
    var uid := Field(row, names.userId);
    LicenseRecordsMembership(LicenseRule(props), uid, Elements(Field(row, names.license)), r);
    LoaRecordsMembership(LicenseRule(props), uid, Elements(Field(row, names.loa)), r);
  }

  lemma LicenseRecordsMembership(valid: string -> bool, uid: Option<string>, elements: seq<string>, r: Record)
    ensures r in LicenseRecords(valid, uid, elements) <==>
              exists e :: e in elements && valid(e) && r == UserLicense(uid, e)
  {
    var rs := LicenseRecords(valid, uid, elements);
    var f := Filter(valid, elements);
    if r in rs {
      var k :| 0 <= k < |rs| && rs[k] == r;
      FilterMembership(valid, elements, f[k]);
    }
    if exists e :: e in elements && valid(e) && r == UserLicense(uid, e) {
      var e :| e in elements && valid(e) && r == UserLicense(uid, e);
      FilterMembership(valid, elements, e);
      var k :| 0 <= k < |f| && f[k] == e;
      assert rs[k] == r;
    }
  }

  lemma LoaRecordsMembership(valid: string -> bool, uid: Option<string>, elements: seq<string>, r: Record)
    ensures r in LoaRecords(valid, uid, elements) <==>
              exists e :: e in elements && valid(e) && r == UserLoa(uid, e)
  {
    var rs := LoaRecords(valid, uid, elements);
    var f := Filter(valid, elements);
    if r in rs {
      var k :| 0 <= k < |rs| && rs[k] == r;
      FilterMembership(valid, elements, f[k]);
    }
    if exists e :: e in elements && valid(e) && r == UserLoa(uid, e) {
      var e :| e in elements && valid(e) && r == UserLoa(uid, e);
      FilterMembership(valid, elements, e);
      var k :| 0 <= k < |f| && f[k] == e;
      assert rs[k] == r;
    }
  }

  /** Every record the pipeline emits has the keys UID and LICENSES, or UID
      and LOAS, never both value keys, and a non-null value. */
  lemma {:induction false} RecordShape(props: Properties, names: FieldNames, rows: seq<UserRow>, r: Record)
    requires r in DictionaryRecords(props, names, rows)
    ensures r.Keys == {Uid, Licenses} || r.Keys == {Uid, Loas}
    ensures Licenses in r ==> Get(r, Licenses).Some?
    ensures Loas in r ==> Get(r, Loas).Some?
  {
    var i := RowOf(props, names, rows, r);
    RowRecordShape(props, names, rows[i], r);
  }

  lemma RowRecordShape(props: Properties, names: FieldNames, row: UserRow, r: Record)
    requires r in RowRecords(props, names, row)
    ensures r.Keys == {Uid, Licenses} || r.Keys == {Uid, Loas}
    ensures Licenses in r ==> Get(r, Licenses).Some?
    ensures Loas in r ==> Get(r, Loas).Some?
  {
    var uid := Field(row, names.userId);
    var licenses := LicenseRecords(LicenseRule(props), uid, Elements(Field(row, names.license)));
    var loas := LoaRecords(LicenseRule(props), uid, Elements(Field(row, names.loa)));
    if r in licenses {
      var k :| 0 <= k < |licenses| && licenses[k] == r;
      assert r.Keys == {Uid, Licenses};
    } else {
      assert r in loas;
      var k :| 0 <= k < |loas| && loas[k] == r;
      assert r.Keys == {Uid, Loas};
    }
  }

  /** The output is the concatenation of the rows' records, so a record is
      emitted exactly when some row emits it. */
  lemma RowOf(props: Properties, names: FieldNames, rows: seq<UserRow>, r: Record) returns (i: nat)
    requires r in DictionaryRecords(props, names, rows)
    ensures i < |rows| && r in RowRecords(props, names, rows[i])
  {
    var parts := RowParts(props, names, rows);
    FlattenMembership(parts, r);
    i :| 0 <= i < |parts| && r in parts[i];
  }

  /** Every record of every row is emitted. */
  lemma RowContributes(props: Properties, names: FieldNames, rows: seq<UserRow>, i: nat, r: Record)
    requires i < |rows| && r in RowRecords(props, names, rows[i])
    ensures r in DictionaryRecords(props, names, rows)
  {
    var parts := RowParts(props, names, rows);
    assert r in parts[i];
    FlattenMembership(parts, r);
  }

  /** The run reports an error exactly when some row had one. */
  lemma {:induction false} ErrorFlag(props: Properties, names: FieldNames, rows: seq<UserRow>)
    ensures DictionaryReport(props, names, rows).errorFound <==>
              exists i :: 0 <= i < |rows| && RowHasError(props, names, rows[i])
  {
    if |rows| > 0 {
      ErrorFlag(props, names, rows[1..]);
      if exists i :: 0 <= i < |rows| && RowHasError(props, names, rows[i]) {
        var i :| 0 <= i < |rows| && RowHasError(props, names, rows[i]);
        if i > 0 {
          assert rows[1..][i - 1] == rows[i];
        }
      }
      if exists i :: 0 <= i < |rows[1..]| && RowHasError(props, names, rows[1..][i]) {
        var i :| 0 <= i < |rows[1..]| && RowHasError(props, names, rows[1..][i]);
        assert rows[i + 1] == rows[1..][i];
      }
    }
  }

  /** A text that is its own single element: no `|` and no blank ends. */
  predicate Atomic(s: string) {
    s != "" && '|' !in s && !IsBlank(s[0]) && !IsBlank(s[|s| - 1])
  }

  lemma SingleElement(s: string)
    requires Atomic(s)
    ensures Elements(Some(s)) == [s]
  {
    assert Split(s, '|') == [s];
    TrimNoBlankEnds(s);
    assert TrimNonEmpty([s]) == [s] by {
      assert [s][1..] == [];
    }
  }

  lemma TwoElements(a: string, b: string)
    requires Atomic(a) && Atomic(b)
    ensures Elements(Some(a + "|" + b)) == [a, b]
  {
    var v := a + "|" + b;
    assert v == Join([a, b], '|') by {
      assert [a, b][1..] == [b];
    }
    SplitJoin([a, b], '|');
    TrimNoBlankEnds(a);
    TrimNoBlankEnds(b);
    assert TrimNonEmpty([a, b]) == [a, b] by {
      assert [a, b][1..] == [b];
      assert [b][1..] == [];
    }
  }

  /** The one record of a row whose only value field holds one element. */
  lemma OneLicense(props: Properties, names: FieldNames, row: UserRow, v: string)
    requires Field(row, names.license) == Some(v) && Atomic(v) && !Present(Field(row, names.loa))
    ensures RowRecords(props, names, row)
         == if ValidateLicense(props, v) then [UserLicense(Field(row, names.userId), v)] else []
  {
    SingleElement(v);
    assert Elements(Field(row, names.loa)) == [];
    var uid := Field(row, names.userId);
    assert LicenseRecords(LicenseRule(props), uid, [v])
        == (if LicenseRule(props)(v) then [UserLicense(uid, v)] else []) + LicenseRecords(LicenseRule(props), uid, []) by {
      assert [v][1..] == [];
    }
  }

  lemma OneLoa(props: Properties, names: FieldNames, row: UserRow, v: string)
    requires Field(row, names.loa) == Some(v) && Atomic(v) && !Present(Field(row, names.license))
    ensures RowRecords(props, names, row)
         == if ValidateLicense(props, v) then [UserLoa(Field(row, names.userId), v)] else []
  {
    SingleElement(v);
    assert Elements(Field(row, names.license)) == [];
    var uid := Field(row, names.userId);
    assert LoaRecords(LicenseRule(props), uid, [v])
        == (if LicenseRule(props)(v) then [UserLoa(uid, v)] else []) + LoaRecords(LicenseRule(props), uid, []) by {
      assert [v][1..] == [];
    }
  }

  /** An invalid element is dropped while the valid elements of the same
      row are still emitted, and the row counts as erroneous. */
  lemma InvalidElementDropped(props: Properties, names: FieldNames, row: UserRow, good: string, bad: string)
    requires Field(row, names.license) == Some(good + "|" + bad) && !Present(Field(row, names.loa))
    requires Atomic(good) && Atomic(bad)
    requires ValidateLicense(props, good) && !ValidateLicense(props, bad)
    ensures RowRecords(props, names, row) == [UserLicense(Field(row, names.userId), good)]
    ensures RowHasError(props, names, row)
  {
    TwoElements(good, bad);
    assert Elements(Field(row, names.loa)) == [];
    var uid := Field(row, names.userId);
    var rule := LicenseRule(props);
    assert rule(good) && !rule(bad);
    assert LicenseRecords(rule, uid, [bad]) == [] by {
      assert [bad][1..] == [];
    }
    assert LicenseRecords(rule, uid, [good, bad]) == [UserLicense(uid, good)] + LicenseRecords(rule, uid, [bad]) by {
      assert [good, bad][1..] == [bad];
    }
    assert bad in Elements(Field(row, names.license)) && !rule(bad);
  }

  /** LOA elements are held to the license limit (9 by default), not the LOA
      limit (7): with no limits configured, an LOA of 8 characters is
      emitted although the LOA rule rejects it. */
  lemma LoaCheckedWithLicenseRule(props: Properties, names: FieldNames, row: UserRow, v: string)
    requires LicenseLengthKey !in props && LoaLengthKey !in props && EccnLengthKey !in props
    requires Field(row, names.loa) == Some(v) && Atomic(v) && |v| == 8 && !Present(Field(row, names.license))
    ensures RowRecords(props, names, row) == [UserLoa(Field(row, names.userId), v)]
    ensures !ValidateLoa(props, v)
  {
    OneLoa(props, names, row, v);
    TrimNoBlankEnds(v);
    DefaultLimits(props, v);
  }

  /** A row whose user id is null or empty is in error, yet still emits its
      records, carrying that user id. */
  lemma MissingUserIdKept(props: Properties, names: FieldNames, row: UserRow, v: string)
    requires !Present(Field(row, names.userId))
    requires Field(row, names.license) == Some(v) && Atomic(v) && ValidateLicense(props, v)
    requires !Present(Field(row, names.loa))
    ensures RowRecords(props, names, row) == [UserLicense(Field(row, names.userId), v)]
    ensures RowHasError(props, names, row)
  {
    OneLicense(props, names, row, v);
  }
}

=== FILE: digits.dfy ===
/** Unsigned decimal numerals: the digit strings that Java's number parsing
    reads and its number formatting writes. */
module Digits {

  predicate IsDigit(c: char) {
    '0' <= c <= '9'
  }

  predicate AllDigits(s: string) {
    forall i :: 0 <= i < |s| ==> IsDigit(s[i])
  }

  function DigitChar(n: nat): (c: char)
    requires n < 10
    ensures IsDigit(c)
  {
    ('0' as int + n) as char
  }

  function DigitValue(c: char): (n: nat)
    requires IsDigit(c)
    ensures n < 10 && DigitChar(n) == c
  {
    c as int - '0' as int
  }

  /** The value of a numeral, most significant digit first; "" reads as 0. */
  function ValueOf(s: string): nat
    requires AllDigits(s)
    decreases |s|
  {
    if |s| == 0 then 0 else ValueOf(s[..|s| - 1]) * 10 + DigitValue(s[|s| - 1])
  }

  /** The shortest numeral of `n`. */
  function Show(n: nat): (s: string)
    ensures AllDigits(s) && 1 <= |s|
    decreases n
  {
    if n < 10 then [DigitChar(n)] else Show(n / 10) + [DigitChar(n % 10)]
  }

  /** `k` zero digits. */
  function Zeros(k: nat): (s: string)
    ensures |s| == k && AllDigits(s)
  {
    if k == 0 then "" else Zeros(k - 1) + "0"
  }

  /** `n` written with at least `width` digits, padded on the left with zeros
      (how a date pattern letter repeated `width` times is formatted). */
  function Pad(n: nat, width: nat): (s: string)
    ensures AllDigits(s)
    ensures |s| == if |Show(n)| < width then width else |Show(n)|
  {
    if |Show(n)| < width then Zeros(width - |Show(n)|) + Show(n) else Show(n)
  }

  /** Reading a shown number gives the number back. */
  lemma {:induction false} ValueOfShow(n: nat)
    ensures ValueOf(Show(n)) == n
    decreases n
  {
    if n >= 10 {
      var s := Show(n);
      assert s[..|s| - 1] == Show(n / 10);
      ValueOfShow(n / 10);
    }
  }

  lemma {:induction false} ValueOfZeros(k: nat)
    ensures ValueOf(Zeros(k)) == 0
  {
    if k > 0 {
      var z := Zeros(k);
      assert z[..|z| - 1] == Zeros(k - 1) && z[|z| - 1] == '0';
      ValueOfZeros(k - 1);
      assert ValueOf(z) == ValueOf(Zeros(k - 1)) * 10 + DigitValue('0');
    }
  }

  /** Leading zeros do not change a numeral's value. */
  lemma {:induction false} ValueOfLeadingZeros(k: nat, s: string)
    requires AllDigits(s)
    ensures AllDigits(Zeros(k) + s)
    ensures ValueOf(Zeros(k) + s) == ValueOf(s)
    decreases |s|
  {
    var t := Zeros(k) + s;
    assert AllDigits(t) by {
      forall i | 0 <= i < |t| ensures IsDigit(t[i]) {
        if i < k { assert t[i] == Zeros(k)[i]; } else { assert t[i] == s[i - k]; }
      }
    }
    if |s| == 0 {
      assert t == Zeros(k);
      ValueOfZeros(k);
    } else {
      var s' := s[..|s| - 1];
      assert t[..|t| - 1] == Zeros(k) + s';
      ValueOfLeadingZeros(k, s');
    }
  }

  /** Reading a padded number gives the number back. */
  lemma ValueOfPad(n: nat, width: nat)
    ensures ValueOf(Pad(n, width)) == n
  {
    var s := Show(n);
    ValueOfShow(n);
    if |s| < width {
      ValueOfLeadingZeros(width - |s|, s);
      assert Pad(n, width) == Zeros(width - |s|) + s;
    } else {
      assert Pad(n, width) == s;
    }
  }

  /** A number below 10^k needs at most k digits. */
  lemma {:induction false} ShowLength(n: nat, k: nat)
    requires 1 <= k
    requires n < Power10(k)
    ensures |Show(n)| <= k
    decreases k
  {
    if n >= 10 {
      assert n / 10 < Power10(k - 1);
      ShowLength(n / 10, k - 1);
    }
  }

  function Power10(k: nat): (p: nat)
    ensures p >= 1
  {
    if k == 0 then 1 else 10 * Power10(k - 1)
  }
}

=== FILE: end_to_end.dfy ===
/** One heartbeat from end to end: the server loads its sources, answers
    the client's first request, and the client's tables end up holding
    the sources' data. These lemmas tie the loaders, the server's answer and
    the client's refresh together. */
module Heartbeat {
  import opened Optional
  import opened JavaText
  import opened Validation
  import opened Records
  import opened Dictionary
  import opened Dates
  import opened Freshness
  import opened CsvLoader
  import opened ServerSync
  import opened ClientCache

  /** A client that has never had an answer, polling a server whose
      snapshot files, where they exist, date from the epoch or later and hold
      what the sources give now (as the server's start-up writes them), with
      a database that accepts the three deletes and every USERLIC and LOADB
      insert (USERLOA inserts may fail). */
  ghost predicate FirstContact(db: Db, client: ClientState, store: Store, inputs: Inputs) {
    && client.requestDate == InitialRequestDate
    && inputs.requestDate == PrepareRequest(client, PluginName)
    && (store.dict.Some? ==> store.dict.value.writtenAt >= 0 && store.dict.value.records == inputs.dictData)
    && (store.loa.Some? ==> store.loa.value.writtenAt >= 0 && store.loa.value.records == inputs.loaData)
    && db.deleteOk(UserLicTable) && db.deleteOk(UserLoaTable) && db.deleteOk(LoadbTable)
    && (forall row :: db.insertOk(UserLicTable, row))
    && (forall row :: db.insertOk(LoadbTable, row))
  }

  /** The LOADB row a CSV record must become: codes lower-cased, dates as
      `yyyy-MM-dd`. */
  predicate StoredAs(props: Properties, rec: Record, row: Row) {
    && Admissible(props, rec)
    && row == [ToLower(Get(rec, License).value), ToLower(Get(rec, Loa).value), ToLower(Get(rec, Eccn).value),
               Get(rec, Expiry).value, Get(rec, Effective).value]
  }

  /** A user row grants license `e` to a known user. */
  predicate Grants(props: Properties, names: FieldNames, user: UserRow, e: string) {
    Field(user, names.userId).Some? && e in Elements(Field(user, names.license)) && LicenseRule(props)(e)
  }

  /** After the first poll, LOADB holds one row per accepted CSV line, in
      file order, each the line's codes lower-cased and its dates in ISO
      form, whichever duplicate key the loader uses. */
  lemma FirstPollLoadsCsv(props: Properties, mode: KeyMode, file: Option<seq<string>>, db: Db, client: ClientState,
                          store: Store, inputs: Inputs, now: Time)
    requires FirstContact(db, client, store, inputs)
    requires inputs.loaData == ParseCsv(props, mode, file) && |inputs.loaData| > 0
    ensures var loadb := ProcessResponse(db, client, PluginName, PrepareData(store, inputs).1, now).tables.loadb;
            && |loadb| == |inputs.loaData|
            && forall i :: 0 <= i < |loadb| ==> StoredAs(props, inputs.loaData[i], loadb[i])
  {
    var records := inputs.loaData;
    FirstPollInserts(db, client, store, inputs, now);
    LoaderOutput(props, mode, file);
    LoadbRows(props, records);
    InsertedAll(db, LoadbTable, LoadbRow, records);
  }

  /** On first contact each refreshed table is the insert loop over the
      records its source gives now. */
  lemma FirstPollInserts(db: Db, client: ClientState, store: Store, inputs: Inputs, now: Time)
    requires FirstContact(db, client, store, inputs)
    ensures var tables := ProcessResponse(db, client, PluginName, PrepareData(store, inputs).1, now).tables;
            && (|inputs.loaData| > 0 ==> tables.loadb == Inserted(db, LoadbTable, LoadbRow, inputs.loaData))
            && (|inputs.dictData| > 0 ==> tables.userLic == Inserted(db, UserLicTable, LicenseRow, inputs.dictData))
  {
    FirstPollGetsBoth(client, store, inputs);
    SnapshotsHoldSources(store, inputs);
    ClientMirrorsSnapshot(db, client, store, inputs, now);
  }

  /** Every admissible record has a LOADB row, the one `StoredAs` names. */
  lemma LoadbRows(props: Properties, records: seq<Record>)
    requires forall k :: 0 <= k < |records| ==> Admissible(props, records[k])
    ensures forall k :: 0 <= k < |records| ==>
              LoadbRow(records[k]).Some? && StoredAs(props, records[k], LoadbRow(records[k]).value)
  {
    forall k | 0 <= k < |records| ensures LoadbRow(records[k]).Some? && StoredAs(props, records[k], LoadbRow(records[k]).value) {
      var rec := records[k];
      var effective := ParseIsoDate(Get(rec, Effective).value).value;
      IsoLowerCase(effective);
    }
  }

  /** After the first poll, USERLIC holds exactly the lower-cased pairs of a
      user id and a license element that passes the license rule. */
  lemma FirstPollLoadsLicenses(props: Properties, names: FieldNames, users: seq<UserRow>, db: Db,
                               client: ClientState, store: Store, inputs: Inputs, now: Time, row: Row)
    requires FirstContact(db, client, store, inputs)
    requires inputs.dictData == DictionaryRecords(props, names, users) && |inputs.dictData| > 0
    ensures var userLic := ProcessResponse(db, client, PluginName, PrepareData(store, inputs).1, now).tables.userLic;
            row in userLic <==>
              exists i, e :: 0 <= i < |users| && Grants(props, names, users[i], e)
                && row == [ToLower(Field(users[i], names.userId).value), ToLower(e)]
  {
    FirstPollInserts(db, client, store, inputs, now);
    InsertedMembership(db, UserLicTable, LicenseRow, inputs.dictData, row);
    LicenseRowsOfUsers(props, names, users, row);
  }

  /** A license row comes from some dictionary record exactly when some user
      row grants that license to a known user. */
  lemma LicenseRowsOfUsers(props: Properties, names: FieldNames, users: seq<UserRow>, row: Row)
    ensures var records := DictionaryRecords(props, names, users);
            (exists k :: 0 <= k < |records| && LicenseRow(records[k]) == Some(row)) <==>
              exists i, e :: 0 <= i < |users| && Grants(props, names, users[i], e)
                && row == [ToLower(Field(users[i], names.userId).value), ToLower(e)]
  {
    var records := DictionaryRecords(props, names, users);
    if exists k :: 0 <= k < |records| && LicenseRow(records[k]) == Some(row) {
      var k :| 0 <= k < |records| && LicenseRow(records[k]) == Some(row);
      LicenseRowGranted(props, names, users, records[k], row);
    }
    if exists i, e :: 0 <= i < |users| && Grants(props, names, users[i], e)
         && row == [ToLower(Field(users[i], names.userId).value), ToLower(e)] {
      GrantedRowListed(props, names, users, row);
    }
  }

  lemma GrantedRowListed(props: Properties, names: FieldNames, users: seq<UserRow>, row: Row)
    requires exists i, e :: 0 <= i < |users| && Grants(props, names, users[i], e)
               && row == [ToLower(Field(users[i], names.userId).value), ToLower(e)]
    ensures var records := DictionaryRecords(props, names, users);
            exists k :: 0 <= k < |records| && LicenseRow(records[k]) == Some(row)
  {
    var records := DictionaryRecords(props, names, users);
    var i, e :| 0 <= i < |users| && Grants(props, names, users[i], e)
       && row == [ToLower(Field(users[i], names.userId).value), ToLower(e)];
    var rec := GrantListed(props, names, users, i, e);
    var k :| 0 <= k < |records| && records[k] == rec;
    assert LicenseRow(records[k]) == Some(row);
  }

  lemma LicenseRowGranted(props: Properties, names: FieldNames, users: seq<UserRow>, r: Record, row: Row)
    requires r in DictionaryRecords(props, names, users) && LicenseRow(r) == Some(row)
    ensures exists i, e :: 0 <= i < |users| && Grants(props, names, users[i], e)
              && row == [ToLower(Field(users[i], names.userId).value), ToLower(e)]
  {
    var i := RowOf(props, names, users, r);
    var uid := Field(users[i], names.userId);
    RowFanOut(props, names, users[i], r);
    if exists e :: e in Elements(Field(users[i], names.loa)) && LicenseRule(props)(e) && r == UserLoa(uid, e) {
      var e :| e in Elements(Field(users[i], names.loa)) && LicenseRule(props)(e) && r == UserLoa(uid, e);
      Routing(uid, e);
      assert false;
    }
    var e :| e in Elements(Field(users[i], names.license)) && LicenseRule(props)(e) && r == UserLicense(uid, e);
    Routing(uid, e);
    assert Grants(props, names, users[i], e);
  }

  lemma GrantListed(props: Properties, names: FieldNames, users: seq<UserRow>, i: nat, e: string) returns (r: Record)
    requires i < |users| && Grants(props, names, users[i], e)
    ensures r in DictionaryRecords(props, names, users)
    ensures LicenseRow(r) == Some([ToLower(Field(users[i], names.userId).value), ToLower(e)])
  {
    var uid := Field(users[i], names.userId);
    r := UserLicense(uid, e);
    RowFanOut(props, names, users[i], r);
    RowContributes(props, names, users, i, r);
    Routing(uid, e);
  }
}

=== FILE: freshness.dfy ===
/** The server's three-way freshness decision (`makeDecision`): given the
    client's last request time, the snapshot file's modification time and the
    upstream source's last-update time, decide whether to send nothing, send
    the existing snapshot, or rebuild the snapshot and send it. */
module Freshness {
  import opened Optional

  /** Milliseconds since the epoch, as carried by `java.util.Date`. */
  type Time = int

  /** `NONE`, `SENDFILE` and `UPDATEFILEANDSEND` of the source. */
  datatype Decision = NoChange | SendFile | UpdateFileAndSend

  /** `makeDecision(pcDate, fileDate, dbDate)` as written: `!a.before(b)` is
      `a >= b`. With all three present the branches are tried in the order
      client, file, source; with exactly one absent the remaining two are
      compared; otherwise, and if no branch matched, the answer is `NoChange`. */
  function MakeDecision(pc: Option<Time>, file: Option<Time>, db: Option<Time>): Decision {
    match (pc, file, db)
    case (Some(p), Some(f), Some(d)) =>
      if p >= f && p >= d then NoChange
      else if f >= p && f >= d then SendFile
      else if d >= p && d >= f then UpdateFileAndSend
      else NoChange
    case (None, Some(f), Some(d)) =>
      if f >= d then SendFile else UpdateFileAndSend
    case (Some(p), None, Some(d)) =>
      if p >= d then NoChange else UpdateFileAndSend
    case (Some(p), Some(f), None) =>
      if p >= f then NoChange else SendFile
    case _ => NoChange
  }

  /** Which of the three known times is the latest, ties going to the
      client first and the file second: the reference the decision follows. */
  function Latest(p: Time, f: Time, d: Time): (r: Decision)
    ensures r == NoChange <==> p >= f && p >= d
    ensures r == SendFile <==> f > p && f >= d
    ensures r == UpdateFileAndSend <==> d > p && d > f
  {
    if p >= f && p >= d then NoChange else if f >= d then SendFile else UpdateFileAndSend
  }

  /** All three present: the decision names the latest time, ties resolved
      towards `NoChange`, then `SendFile`; the final fall-through to `NoChange` is
      unreachable because times are totally ordered. */
  lemma AllPresent(p: Time, f: Time, d: Time)
    ensures MakeDecision(Some(p), Some(f), Some(d)) == Latest(p, f, d)
    ensures MakeDecision(Some(p), Some(f), Some(d)) == NoChange <==> p >= f && p >= d
    ensures MakeDecision(Some(p), Some(f), Some(d)) == SendFile <==> f > p && f >= d
    ensures MakeDecision(Some(p), Some(f), Some(d)) == UpdateFileAndSend <==> d > p && d > f
  {
  }

  /** Exactly one time absent: the other two are compared two-way. */
  lemma OneAbsent(p: Time, f: Time, d: Time)
    ensures MakeDecision(None, Some(f), Some(d)) == SendFile <==> f >= d
    ensures MakeDecision(None, Some(f), Some(d)) != NoChange
    ensures MakeDecision(Some(p), None, Some(d)) == NoChange <==> p >= d
    ensures MakeDecision(Some(p), None, Some(d)) != SendFile
    ensures MakeDecision(Some(p), Some(f), None) == NoChange <==> p >= f
    ensures MakeDecision(Some(p), Some(f), None) != UpdateFileAndSend
  {
  }

  /** Two or more times absent: nothing is sent. */
  lemma TwoAbsent(pc: Option<Time>, file: Option<Time>, db: Option<Time>)
    requires (if pc.None? then 1 else 0) + (if file.None? then 1 else 0) + (if db.None? then 1 else 0) >= 2
    ensures MakeDecision(pc, file, db) == NoChange
  {
  }

  /** A later source time never makes the decision less eager: once the
      snapshot must be rebuilt, a newer source still requires a rebuild. */
  lemma SourceMonotone(pc: Option<Time>, file: Option<Time>, d: Time, d': Time)
    requires d <= d'
    requires MakeDecision(pc, file, Some(d)) == UpdateFileAndSend
    ensures MakeDecision(pc, file, Some(d')) == UpdateFileAndSend
  {
  }

  /** The decision depends on the times only through their order: shifting
      every present time by the same amount keeps it. */
  lemma ShiftInvariant(pc: Option<Time>, file: Option<Time>, db: Option<Time>, delta: int)
    ensures MakeDecision(Shift(pc, delta), Shift(file, delta), Shift(db, delta)) == MakeDecision(pc, file, db)
  {
  }

  function Shift(t: Option<Time>, delta: int): (r: Option<Time>)
    ensures r.Some? <==> t.Some?
    ensures r.Some? ==> r.value - t.value == delta
  {
    match t
    case Some(v) => Some(v + delta)
    case None => None
  }
}

=== FILE: java_text.dfy ===
/** The few `java.lang.String` and `Integer` operations the plugin relies on,
    with Java's edge cases written out. */
module JavaText {
  import opened Optional
  import opened Digits

  /** `String.trim()` strips every character whose code is at most U+0020. */
  predicate IsBlank(c: char) {
    c <= ' '
  }

  function TrimStart(s: string): string
    decreases |s|
  {
    if |s| > 0 && IsBlank(s[0]) then TrimStart(s[1..]) else s
  }

  function TrimEnd(s: string): string
    decreases |s|
  {
    if |s| > 0 && IsBlank(s[|s| - 1]) then TrimEnd(s[..|s| - 1]) else s
  }

  /** `String.trim()`. */
  function Trim(s: string): string
  {
    TrimEnd(TrimStart(s))
  }

  lemma {:induction false} TrimStartSlice(s: string) returns (i: nat)
    ensures i <= |s| && TrimStart(s) == s[i..]
    ensures forall k :: 0 <= k < i ==> IsBlank(s[k])
    ensures i < |s| ==> !IsBlank(s[i])
    decreases |s|
  {
    if |s| > 0 && IsBlank(s[0]) {
      var i' := TrimStartSlice(s[1..]);
      i := i' + 1;
      assert s[1..][i'..] == s[i..];
    } else {
      i := 0;
    }
  }

  lemma {:induction false} TrimEndSlice(s: string) returns (j: nat)
    ensures j <= |s| && TrimEnd(s) == s[..j]
    ensures forall k :: j <= k < |s| ==> IsBlank(s[k])
    ensures 0 < j ==> !IsBlank(s[j - 1])
    decreases |s|
  {
    if |s| > 0 && IsBlank(s[|s| - 1]) {
      j := TrimEndSlice(s[..|s| - 1]);
      assert s[..|s| - 1][..j] == s[..j];
    } else {
      j := |s|;
    }
  }

  /** `trim` removes exactly the blank prefix and the blank suffix: the
      result is the slice between the first and last non-blank characters,
      and it is empty exactly when `s` is all blank. */
  lemma TrimSlice(s: string) returns (i: nat, j: nat)
    ensures i <= j <= |s| && Trim(s) == s[i..j]
    ensures forall k :: 0 <= k < i ==> IsBlank(s[k])
    ensures forall k :: j <= k < |s| ==> IsBlank(s[k])
    ensures i < j ==> !IsBlank(s[i]) && !IsBlank(s[j - 1])
  {
    i := TrimStartSlice(s);
    var j' := TrimEndSlice(s[i..]);
    j := i + j';
    assert s[i..][..j'] == s[i..j];
    forall k | j <= k < |s| ensures IsBlank(s[k]) {
      assert s[k] == s[i..][k - i];
    }
    if 0 < j' {
      assert s[j - 1] == s[i..][j' - 1];
    }
  }

  /** A string without blank ends is its own trim. */
  lemma TrimNoBlankEnds(s: string)
    requires |s| > 0 ==> !IsBlank(s[0]) && !IsBlank(s[|s| - 1])
    ensures Trim(s) == s
  {
  }

  /** Trimming twice is trimming once. */
  lemma TrimIdempotent(s: string)
    ensures Trim(Trim(s)) == Trim(s)
  {
    var i, j := TrimSlice(s);
    TrimNoBlankEnds(Trim(s));
  }

  /** Every character of `s` is one `trim` strips. */
  predicate AllBlank(s: string) {
    forall k :: 0 <= k < |s| ==> IsBlank(s[k])
  }

  lemma {:induction false} TrimStartBlank(a: string, rest: string)
    requires AllBlank(a)
    requires |rest| > 0 ==> !IsBlank(rest[0])
    ensures TrimStart(a + rest) == rest
    decreases |a|
  {
    if |a| > 0 {
      assert (a + rest)[1..] == a[1..] + rest;
      TrimStartBlank(a[1..], rest);
    } else {
      assert a + rest == rest;
    }
  }

  lemma {:induction false} TrimEndBlank(rest: string, b: string)
    requires AllBlank(b)
    requires |rest| > 0 ==> !IsBlank(rest[|rest| - 1])
    ensures TrimEnd(rest + b) == rest
    decreases |b|
  {
    if |b| > 0 {
      assert (rest + b)[..|rest + b| - 1] == rest + b[..|b| - 1];
      TrimEndBlank(rest, b[..|b| - 1]);
    } else {
      assert rest + b == rest;
    }
  }

  /** `trim` of a string framed by blanks is the frame's inside, when that
      inside is empty or has no blank ends. */
  lemma TrimFramed(a: string, m: string, b: string)
    requires AllBlank(a) && AllBlank(b)
    requires |m| > 0 ==> !IsBlank(m[0]) && !IsBlank(m[|m| - 1])
    ensures Trim(a + m + b) == m
  {
    if |m| > 0 {
      assert a + m + b == a + (m + b);
      TrimStartBlank(a, m + b);
      TrimEndBlank(m, b);
    } else {
      assert a + m + b == (a + b) + "";
      TrimStartBlank(a + b, "");
    }
  }

  /** Blanks added around a string do not change its trim. */
  lemma TrimIgnoresPadding(p: string, s: string, q: string)
    requires AllBlank(p) && AllBlank(q)
    ensures Trim(p + s + q) == Trim(s)
  {
    var i, j := TrimSlice(s);
    var m := s[i..j];
    assert s == s[..i] + m + s[j..];
    assert p + s + q == (p + s[..i]) + m + (s[j..] + q);
    TrimFramed(p + s[..i], m, s[j..] + q);
  }

  /** Trimming never introduces a character. */
  lemma TrimKeepsCharacters(s: string, c: char)
    ensures c in Trim(s) ==> c in s
  {
    var i, j := TrimSlice(s);
    if c in Trim(s) {
      var k :| 0 <= k < |Trim(s)| && Trim(s)[k] == c;
      assert s[i + k] == c;
    }
  }

  /** `Character.toLowerCase` on the ASCII letters; other characters are kept. */
  function LowerChar(c: char): char {
    if 'A' <= c <= 'Z' then (c as int + 32) as char else c
  }

  /** `String.toLowerCase()`, restricted to ASCII case mapping. */
  function ToLower(s: string): (r: string)
    ensures |r| == |s|
    ensures forall i :: 0 <= i < |s| ==> r[i] == LowerChar(s[i])
  {
    if |s| == 0 then "" else [LowerChar(s[0])] + ToLower(s[1..])
  }

  /** Lower-casing an already lower-cased string changes nothing. */
  lemma ToLowerIdempotent(s: string)
    ensures ToLower(ToLower(s)) == ToLower(s)
  {
  }

  /** The pieces of `s` between the occurrences of `d`, empty pieces included:
      always one more piece than there are `d`s. */
  function Pieces(s: string, d: char): (ps: seq<string>)
    ensures |ps| >= 1
    ensures forall k :: 0 <= k < |ps| ==> d !in ps[k]
    decreases |s|
  {
    if |s| == 0 then [""]
    else if s[0] == d then [""] + Pieces(s[1..], d)
    else
      var rest := Pieces(s[1..], d);
      [[s[0]] + rest[0]] + rest[1..]
  }

  /** The pieces glued back together with `d` between neighbours. */
  function Join(ps: seq<string>, d: char): string
    requires |ps| >= 1
  {
    if |ps| == 1 then ps[0] else ps[0] + [d] + Join(ps[1..], d)
  }

  /** Splitting then joining gives the text back. */
  lemma {:induction false} JoinPieces(s: string, d: char)
    ensures Join(Pieces(s, d), d) == s
    decreases |s|
  {
    if |s| == 0 {
    } else if s[0] == d {
      JoinPieces(s[1..], d);
      assert Pieces(s, d)[1..] == Pieces(s[1..], d);
    } else {
      var rest := Pieces(s[1..], d);
      JoinPieces(s[1..], d);
      var ps := Pieces(s, d);
      if |rest| == 1 {
        assert ps == [[s[0]] + rest[0]];
      } else {
        assert ps[1..] == rest[1..];
        assert Join(rest, d) == rest[0] + [d] + Join(rest[1..], d);
      }
    }
  }

  /** Joining pieces that do not contain `d`, then splitting, gives the pieces back. */
  lemma {:induction false} PiecesJoin(ps: seq<string>, d: char)
    requires |ps| >= 1
    requires forall k :: 0 <= k < |ps| ==> d !in ps[k]
    ensures Pieces(Join(ps, d), d) == ps
    decreases |ps|, |ps[0]|
  {
    if |ps[0]| == 0 {
      if |ps| == 1 {
      } else {
        var j := Join(ps, d);
        assert j == [d] + Join(ps[1..], d);
        assert j[1..] == Join(ps[1..], d);
        PiecesJoin(ps[1..], d);
      }
    } else {
      var c := ps[0][0];
      var ps' := [ps[0][1..]] + ps[1..];
      assert d !in ps'[0] by {
        assert forall k :: 0 <= k < |ps'[0]| ==> ps'[0][k] == ps[0][k + 1];
      }
      assert forall k :: 0 <= k < |ps'| ==> d !in ps'[k] by {
        forall k | 0 <= k < |ps'| ensures d !in ps'[k] {
          if k > 0 { assert ps'[k] == ps[k]; }
        }
      }
      PiecesJoin(ps', d);
      var j := Join(ps, d);
      assert j == [c] + Join(ps', d) by {
        if |ps| == 1 {
          assert ps[0] == [c] + ps[0][1..];
        } else {
          assert ps'[1..] == ps[1..];
          assert ps[0] == [c] + ps[0][1..];
        }
      }
      assert j[0] == c && j[1..] == Join(ps', d);
      assert c != d by {
        assert ps[0][0] == c;
      }
      assert [c] + ps'[0] == ps[0];
      assert ps'[1..] == ps[1..];
      assert ps == [ps[0]] + ps[1..];
    }
  }

  /** Without any `d` there is a single piece, the text itself. */
  lemma {:induction false} PiecesWithoutDelimiter(s: string, d: char)
    requires d !in s
    ensures Pieces(s, d) == [s]
    decreases |s|
  {
    if |s| > 0 {
      assert d !in s[1..] by {
        assert forall k :: 0 <= k < |s[1..]| ==> s[1..][k] == s[k + 1];
      }
      PiecesWithoutDelimiter(s[1..], d);
      assert s == [s[0]] + s[1..];
    }
  }

  /** The pieces without their run of trailing empty pieces. */
  function DropTrailingEmpty(ps: seq<string>): (r: seq<string>)
    ensures |r| <= |ps| && r == ps[..|r|]
    ensures forall k :: |r| <= k < |ps| ==> ps[k] == ""
    ensures |r| == 0 || r[|r| - 1] != ""
  {
    if |ps| > 0 && ps[|ps| - 1] == "" then DropTrailingEmpty(ps[..|ps| - 1]) else ps
  }

  /** `s.split(d)` for a one-character literal delimiter: when `d` occurs
      the pieces lose their trailing empty ones (so the result can be
      empty); when it does not, the result is `s` alone, even `""`. */
  function Split(s: string, d: char): (r: seq<string>)
    ensures d !in s ==> r == [s]
    ensures d in s ==> |r| == 0 || r[|r| - 1] != ""
    ensures |r| <= |Pieces(s, d)| && r == Pieces(s, d)[..|r|]
    ensures forall k :: |r| <= k < |Pieces(s, d)| ==> Pieces(s, d)[k] == ""
  {
    if d !in s then PiecesWithoutDelimiter(s, d); [s] else DropTrailingEmpty(Pieces(s, d))
  }

  /** A row written with `d` between its fields, none holding `d` and the
      last not empty, is split back into exactly those fields. */
  lemma SplitJoin(ps: seq<string>, d: char)
    requires |ps| >= 2
    requires forall k :: 0 <= k < |ps| ==> d !in ps[k]
    requires ps[|ps| - 1] != ""
    ensures Split(Join(ps, d), d) == ps
  {
    PiecesJoin(ps, d);
    var s := Join(ps, d);
    assert s == ps[0] + [d] + Join(ps[1..], d);
    assert s[|ps[0]|] == d;
  }

  /** Java `int` range. */
  predicate InInt32(n: int) {
    -0x8000_0000 <= n < 0x8000_0000
  }

  /** `Integer.parseInt(s)`: an optional sign followed by at least one
      digit, and the value must fit in an `int`; anything else throws
      `NumberFormatException`, modelled as `None`. */
  function ParseInt(s: string): (r: Option<int>)
    ensures r.Some? ==> InInt32(r.value)
    ensures r.Some? ==> |s| >= 1 && (IsDigit(s[0]) || s[0] == '-' || s[0] == '+')
  {
    if |s| == 0 then None
    else if s[0] == '-' || s[0] == '+' then
      if |s| == 1 || !AllDigits(s[1..]) then None
      else
        var v: int := if s[0] == '-' then 0 - ValueOf(s[1..]) else ValueOf(s[1..]);
        if InInt32(v) then Some(v) else None
    else if AllDigits(s) && InInt32(ValueOf(s)) then Some(ValueOf(s))
    else None
  }

  /** `Integer.toString(n)`. */
  function ShowInt(n: int): string {
    if n < 0 then "-" + Show(-n) else Show(n)
  }

  /** `parseInt` reads back every `int` that `toString` writes. */
  lemma ParseIntShowInt(n: int)
    requires InInt32(n)
    ensures ParseInt(ShowInt(n)) == Some(n)
  {
    if n < 0 {
      ValueOfShow(-n);
      ParseMinus(Show(-n));
    } else {
      ValueOfShow(n);
      ParseDigits(Show(n));
    }
  }

  lemma ParseDigits(s: string)
    requires |s| >= 1 && AllDigits(s) && InInt32(ValueOf(s))
    ensures ParseInt(s) == Some(ValueOf(s))
  {
    assert IsDigit(s[0]);
  }

  lemma ParseMinus(digits: string)
    requires |digits| >= 1 && AllDigits(digits) && InInt32(0 - ValueOf(digits))
    ensures ParseInt("-" + digits) == Some(0 - ValueOf(digits))
  {
    var s := "-" + digits;
    assert s[0] == '-' && s[1..] == digits;
  }
}

=== FILE: optional.dfy ===
/** Java references that may be null are modelled as `Option` values. */
module Optional {

  datatype Option<+T> = None | Some(value: T) {

    /** The value, or `default` when it is absent (a Java `x == null ? d : x`). */
    function GetOr(default: T): T {
      match this
      case Some(v) => v
      case None => default
    }
  }
}

=== FILE: records.dfy ===
/** The records exchanged between server and client: Java
    `HashMap<String, String>` values, in which a key may be missing or be
    present with a null value. */
module Records {
  import opened Optional

  type Record = map<string, Option<string>>

  const Uid: string := "UID"
  const Licenses: string := "LICENSES"
  const Loas: string := "LOAS"

  const License: string := "LICENSE"
  const Loa: string := "LOA"
  const Eccn: string := "ECCN"
  const Effective: string := "EFFECTIVE"
  const Expiry: string := "EXPIRY"

  /** `HashMap.get(key)`: null for a missing key as for a null value. */
  function Get(r: Record, key: string): Option<string> {
    if key in r then r[key] else None
  }

  /** A dictionary record granting `license` to the user `uid`. */
  function UserLicense(uid: Option<string>, license: string): (r: Record)
    ensures r.Keys == {Uid, Licenses}
    ensures Get(r, Uid) == uid && Get(r, Licenses) == Some(license)
  {
    map[Uid := uid, Licenses := Some(license)]
  }

  /** A dictionary record granting `loa` to the user `uid`. */
  function UserLoa(uid: Option<string>, loa: string): (r: Record)
    ensures r.Keys == {Uid, Loas}
    ensures Get(r, Uid) == uid && Get(r, Loas) == Some(loa)
  {
    map[Uid := uid, Loas := Some(loa)]
  }

  /** A license-LOA-ECCN mapping record, dates already in `yyyy-MM-dd`. */
  function LicLoaEccn(license: string, loa: string, eccn: string, effective: string, expiry: string): (r: Record)
    ensures r.Keys == {License, Loa, Eccn, Effective, Expiry}
    ensures Get(r, License) == Some(license) && Get(r, Loa) == Some(loa) && Get(r, Eccn) == Some(eccn)
    ensures Get(r, Effective) == Some(effective) && Get(r, Expiry) == Some(expiry)
  {
    map[License := Some(license), Loa := Some(loa), Eccn := Some(eccn),
        Effective := Some(effective), Expiry := Some(expiry)]
  }
}

=== FILE: seqs.dfy ===
/** Small sequence combinators used as independent reference definitions. */
module Seqs {

  /** The elements of `s` that satisfy `p`, in order. */
  function Filter<T>(p: T -> bool, s: seq<T>): (r: seq<T>)
    ensures |r| <= |s|
  {
    if |s| == 0 then []
    else if p(s[0]) then [s[0]] + Filter(p, s[1..])
    else Filter(p, s[1..])
  }

  /** `f` applied to each element of `s`. */
  function Map<T, U>(f: T -> U, s: seq<T>): (r: seq<U>)
    ensures |r| == |s|
    ensures forall i :: 0 <= i < |s| ==> r[i] == f(s[i])
  {
    if |s| == 0 then [] else [f(s[0])] + Map(f, s[1..])
  }

  /** An element is kept exactly when it occurs and satisfies `p`. */
  lemma {:induction false} FilterMembership<T>(p: T -> bool, s: seq<T>, x: T)
    ensures x in Filter(p, s) <==> x in s && p(x)
  {
    if |s| > 0 {
      FilterMembership(p, s[1..], x);
      assert s == [s[0]] + s[1..];
    }
  }

  lemma FilterAppend<T>(p: T -> bool, a: seq<T>, b: seq<T>)
    ensures Filter(p, a + b) == Filter(p, a) + Filter(p, b)
  {
    if |a| == 0 {
      assert a + b == b;
    } else {
      assert (a + b)[1..] == a[1..] + b;
      FilterAppend(p, a[1..], b);
    }
  }

  lemma JoinPair<T>(a: T, b: T)
    ensures [a] + [b] == [a, b]
  {
  }

  /** The parts one after the other. */
  function Flatten<T>(parts: seq<seq<T>>): seq<T> {
    if |parts| == 0 then [] else parts[0] + Flatten(parts[1..])
  }

  /** An element of the whole comes from some part, and every part's
      elements are in the whole. */
  lemma {:induction false} FlattenMembership<T>(parts: seq<seq<T>>, x: T)
    ensures x in Flatten(parts) <==> exists i :: 0 <= i < |parts| && x in parts[i]
  {
    if |parts| > 0 {
      FlattenMembership(parts[1..], x);
      if exists i :: 0 <= i < |parts| && x in parts[i] {
        var i :| 0 <= i < |parts| && x in parts[i];
        if i > 0 {
          assert parts[1..][i - 1] == parts[i];
        }
      }
      if exists i :: 0 <= i < |parts[1..]| && x in parts[1..][i] {
        var i :| 0 <= i < |parts[1..]| && x in parts[1..][i];
        assert parts[1..][i] == parts[i + 1];
      }
    }
  }
}

=== FILE: server_sync.dfy ===
/** The server's answer to a heartbeat (`prepareData`): for each of the two
    data sets (dictionary and LIC-LOA-ECCN) it decides from three times
    whether to send nothing, the stored snapshot file, or a freshly built
    one; rebuilds missing snapshots; and answers with two YES/NO flags and
    the snapshot files to ship, or with nothing at all.

    The file system is a `Store` of the two snapshot files; the directory
    and the CSV file are reached through `Inputs`, which carries their
    modification times and the records they would give now. */
module ServerSync {
  import opened Optional
  import opened Freshness
  import opened Records

  const DictDataFile: string := "dictdata.bin"
  const LoaEccnFile: string := "loaeccndata.bin"

  /** A serialised snapshot file: when it was last written, and its records. */
  datatype Snapshot = Snapshot(writtenAt: Time, records: seq<Record>)

  /** The server's data folder: each snapshot file may be absent. */
  datatype Store = Store(dict: Option<Snapshot>, loa: Option<Snapshot>)

  /** One request: the client's date (absent when the request has none),
      the CSV file's modification time (absent when the path is unset or the
      file missing), the directory's last update time (absent when it
      cannot be read), the records the directory and the CSV give now, and
      the clock. */
  datatype Inputs = Inputs(requestDate: Option<Time>, csvModified: Option<Time>,
                           dictModified: Option<Time>, dictData: seq<Record>,
                           loaData: seq<Record>, now: Time)

  /** The shipped archive: snapshot file name to the records it holds. */
  type Archive = map<string, seq<Record>>

  /** The answer map: `dictFile` and `loaFile` are the YES/NO flags, `data`
      the archive (null when it could not be built). */
  datatype Response = Response(dictFile: bool, loaFile: bool, data: Option<Archive>)

  /** A missing time reads as the epoch. */
  function TimeOr0(t: Option<Time>): Time {
    t.GetOr(0)
  }

  /** A snapshot's modification time, the epoch when it is missing. */
  function ModifiedAt(s: Option<Snapshot>): Time {
    match s
    case Some(snap) => snap.writtenAt
    case None => 0
  }

  /** Writing fetched records: an empty fetch writes nothing and keeps what
      was there. */
  function Refresh(s: Option<Snapshot>, data: seq<Record>, now: Time): Option<Snapshot> {
    if |data| > 0 then Some(Snapshot(now, data)) else s
  }

  /** What one data set needs: rebuild its snapshot, send it, or both. */
  datatype Plan = Plan(fetch: bool, send: bool)

  /** The flags one decision sets; a missing snapshot is rebuilt whatever
      the decision. */
  function PlanFor(d: Decision, present: bool): Plan {
    Plan(d == UpdateFileAndSend || !present, d == SendFile || d == UpdateFileAndSend)
  }

  /** The decision for one data set: the request date, the snapshot's time
      and the source's time, each defaulted to the epoch. */
  function DecisionFor(request: Option<Time>, snapshot: Option<Snapshot>, source: Option<Time>): Decision {
    MakeDecision(Some(TimeOr0(request)), Some(ModifiedAt(snapshot)), Some(TimeOr0(source)))
  }

  function DictDecision(store: Store, inputs: Inputs): Decision {
    DecisionFor(inputs.requestDate, store.dict, inputs.dictModified)
  }

  function LoaDecision(store: Store, inputs: Inputs): Decision {
    DecisionFor(inputs.requestDate, store.loa, inputs.csvModified)
  }

  /** One snapshot through the rebuild step and then the send step, which
      rebuilds once more when the file is still missing. */
  function Settle(s: Option<Snapshot>, plan: Plan, data: seq<Record>, now: Time): Option<Snapshot> {
    var fetched := if plan.fetch then Refresh(s, data, now) else s;
    if plan.send && fetched.None? then Refresh(fetched, data, now) else fetched
  }

  /** The archive entry for one data set: its file when it is to be sent
      and exists. */
  function Entry(name: string, send: bool, s: Option<Snapshot>): Archive {
    if send && s.Some? then map[name := s.value.records] else map[]
  }

  /** `prepareData`: the new store and the answer, `None` for a null
      answer. */
  function PrepareData(store: Store, inputs: Inputs): (Store, Option<Response>) {
    var loaPlan := PlanFor(LoaDecision(store, inputs), store.loa.Some?);
    var dictPlan := PlanFor(DictDecision(store, inputs), store.dict.Some?);
    if !loaPlan.fetch && !loaPlan.send && !dictPlan.fetch && !dictPlan.send then (store, None)
    else
      var dict := Settle(store.dict, dictPlan, inputs.dictData, inputs.now);
      var loa := Settle(store.loa, loaPlan, inputs.loaData, inputs.now);
      var data := Entry(DictDataFile, dictPlan.send, dict) + Entry(LoaEccnFile, loaPlan.send, loa);
      (Store(dict, loa), Some(Response(dictPlan.send, loaPlan.send, Some(data))))
  }

  // ---------------------------------------------------------------------
  // Properties

  /** The answer is null exactly when neither data set is to be sent and
      both snapshot files exist; a null answer leaves the store alone. */
  lemma NullAnswer(store: Store, inputs: Inputs)
    ensures PrepareData(store, inputs).1.None? <==>
              && DictDecision(store, inputs) == NoChange && LoaDecision(store, inputs) == NoChange
              && store.dict.Some? && store.loa.Some?
    ensures PrepareData(store, inputs).1.None? ==> PrepareData(store, inputs).0 == store
  {
  }

  /** A flag is YES exactly when something about that data set changed
      after the client's request: its snapshot file or its source. */
  lemma FlagsMeanNewer(store: Store, inputs: Inputs)
    requires PrepareData(store, inputs).1.Some?
    ensures var r := PrepareData(store, inputs).1.value;
            var pc := TimeOr0(inputs.requestDate);
            && (r.dictFile <==> pc < ModifiedAt(store.dict) || pc < TimeOr0(inputs.dictModified))
            && (r.loaFile <==> pc < ModifiedAt(store.loa) || pc < TimeOr0(inputs.csvModified))
  {
    var pc := TimeOr0(inputs.requestDate);
    AllPresent(pc, ModifiedAt(store.dict), TimeOr0(inputs.dictModified));
    AllPresent(pc, ModifiedAt(store.loa), TimeOr0(inputs.csvModified));
  }

  /** When the source is the newest of the three times, or the file is
      missing, non-empty records fetched now replace the snapshot. */
  lemma RebuildWhenSourceNewer(store: Store, inputs: Inputs)
    ensures var pc := TimeOr0(inputs.requestDate);
            var f := ModifiedAt(store.dict);
            var d := TimeOr0(inputs.dictModified);
            ((d > pc && d > f) || store.dict.None?) && |inputs.dictData| > 0 ==>
              PrepareData(store, inputs).0.dict == Some(Snapshot(inputs.now, inputs.dictData))
    ensures var pc := TimeOr0(inputs.requestDate);
            var f := ModifiedAt(store.loa);
            var d := TimeOr0(inputs.csvModified);
            ((d > pc && d > f) || store.loa.None?) && |inputs.loaData| > 0 ==>
              PrepareData(store, inputs).0.loa == Some(Snapshot(inputs.now, inputs.loaData))
  {
    var pc := TimeOr0(inputs.requestDate);
    AllPresent(pc, ModifiedAt(store.dict), TimeOr0(inputs.dictModified));
    AllPresent(pc, ModifiedAt(store.loa), TimeOr0(inputs.csvModified));
  }

  /** Snapshot files are never deleted, and a stored snapshot is replaced
      only by fresh, non-empty records. */
  lemma SnapshotsKept(store: Store, inputs: Inputs)
    ensures store.dict.Some? ==> PrepareData(store, inputs).0.dict.Some?
    ensures store.loa.Some? ==> PrepareData(store, inputs).0.loa.Some?
    ensures PrepareData(store, inputs).0.dict != store.dict ==>
              |inputs.dictData| > 0 && PrepareData(store, inputs).0.dict == Some(Snapshot(inputs.now, inputs.dictData))
    ensures PrepareData(store, inputs).0.loa != store.loa ==>
              |inputs.loaData| > 0 && PrepareData(store, inputs).0.loa == Some(Snapshot(inputs.now, inputs.loaData))
  {
  }

  /** A snapshot that already holds what its source gives now still holds
      it after the answer, and a missing one is built from non-empty
      records: either way the stored records are the source's. */
  lemma SnapshotsHoldSources(store: Store, inputs: Inputs)
    requires store.dict.Some? ==> store.dict.value.records == inputs.dictData
    requires store.loa.Some? ==> store.loa.value.records == inputs.loaData
    ensures |inputs.dictData| > 0 ==>
              PrepareData(store, inputs).0.dict.Some? && PrepareData(store, inputs).0.dict.value.records == inputs.dictData
    ensures |inputs.loaData| > 0 ==>
              PrepareData(store, inputs).0.loa.Some? && PrepareData(store, inputs).0.loa.value.records == inputs.loaData
  {
    SnapshotsKept(store, inputs);
    RebuildWhenSourceNewer(store, inputs);
  }

  /** The archive holds a data set's file exactly when its flag is YES and
      the file exists after the rebuilds, and then it holds the stored
      records. */
  lemma ArchiveMatchesFlags(store: Store, inputs: Inputs)
    requires PrepareData(store, inputs).1.Some?
    ensures var (after, r) := PrepareData(store, inputs);
            && r.value.data.Some?
            && (DictDataFile in r.value.data.value <==> r.value.dictFile && after.dict.Some?)
            && (LoaEccnFile in r.value.data.value <==> r.value.loaFile && after.loa.Some?)
            && (DictDataFile in r.value.data.value ==> r.value.data.value[DictDataFile] == after.dict.value.records)
            && (LoaEccnFile in r.value.data.value ==> r.value.data.value[LoaEccnFile] == after.loa.value.records)
            && r.value.data.value.Keys <= {DictDataFile, LoaEccnFile}
  {
  }

  /** A request dated before both snapshot files (a missing one counts as
      written at the epoch) gets both flags YES, whatever the sources' times. */
  lemma EarlyRequestGetsBoth(store: Store, inputs: Inputs)
    requires TimeOr0(inputs.requestDate) < ModifiedAt(store.dict)
    requires TimeOr0(inputs.requestDate) < ModifiedAt(store.loa)
    ensures PrepareData(store, inputs).1.Some?
    ensures PrepareData(store, inputs).1.value.dictFile && PrepareData(store, inputs).1.value.loaFile
  {
    var pc := TimeOr0(inputs.requestDate);
    AllPresent(pc, ModifiedAt(store.dict), TimeOr0(inputs.dictModified));
    AllPresent(pc, ModifiedAt(store.loa), TimeOr0(inputs.csvModified));
  }

  /** Once a data set has been sent, a request dated at or after the
      snapshot's write and the source's update gets NO for it. */
  lemma UpToDateGetsNo(store: Store, inputs: Inputs)
    requires PrepareData(store, inputs).1.Some?
    requires TimeOr0(inputs.requestDate) >= ModifiedAt(store.dict)
    requires TimeOr0(inputs.requestDate) >= TimeOr0(inputs.dictModified)
    ensures !PrepareData(store, inputs).1.value.dictFile
  {
    FlagsMeanNewer(store, inputs);
  }
}

=== FILE: validation.dfy ===
/** The server's field validators (`validate` and its license, LOA and ECCN
    wrappers) and the splitting of multi-valued fields
    (`getPipeSeparatedStrings`). */
module Validation {
  import opened Optional
  import opened Seqs
  import opened JavaText

  /** The server plugin's property file, key to value. */
  type Properties = map<string, string>

  const LicenseLengthKey: string := "license_length"
  const LoaLengthKey: string := "loa_length"
  const EccnLengthKey: string := "eccn_length"

  const DefaultLicenseLength: int := 9
  const DefaultLoaLength: int := 7
  const DefaultEccnLength: int := 10

  /** `Properties.getProperty(key)`: null when the key is not set. */
  function Property(props: Properties, key: string): Option<string> {
    if key in props then Some(props[key]) else None
  }

  /** The length limit `validate` applies: the property, trimmed and parsed
      as an `int`, when it is set and parses; the default otherwise
      (missing, empty or unparsable property). */
  function LengthLimit(props: Properties, key: string, default: int): (limit: int)
    ensures key in props && ParseInt(Trim(props[key])).Some? ==> limit == ParseInt(Trim(props[key])).value
    ensures !(key in props && ParseInt(Trim(props[key])).Some?) ==> limit == default
  {
    match Property(props, key)
    case None => default
    case Some(p) => if |p| == 0 then default else ParseInt(Trim(p)).GetOr(default)
  }

  /** `validate(parameter, propertyName, defaultLength)`. */
  predicate Validate(props: Properties, value: Option<string>, key: string, default: int) {
    && value.Some?
    && |value.value| > 0
    && |Trim(value.value)| <= LengthLimit(props, key, default)
  }

  predicate ValidateLicense(props: Properties, license: string) {
    Validate(props, Some(license), LicenseLengthKey, DefaultLicenseLength)
  }

  predicate ValidateLoa(props: Properties, loa: string) {
    Validate(props, Some(loa), LoaLengthKey, DefaultLoaLength)
  }

  predicate ValidateEccn(props: Properties, eccn: string) {
    Validate(props, Some(eccn), EccnLengthKey, DefaultEccnLength)
  }

  /** Leading and trailing blanks around a non-empty value never change
      whether it is valid: only its trimmed length is measured. */
  lemma ValidateIgnoresPadding(props: Properties, p: string, s: string, q: string, key: string, default: int)
    requires s != "" && AllBlank(p) && AllBlank(q)
    ensures Validate(props, Some(p + s + q), key, default) <==> Validate(props, Some(s), key, default)
  {
    TrimIgnoresPadding(p, s, q);
  }

  /** The emptiness test comes before trimming: a value made only of blanks
      is valid under any limit that is not negative, while null and the
      empty string never are. */
  lemma BlankValuePasses(props: Properties, s: string, key: string, default: int)
    requires s != "" && AllBlank(s)
    ensures Validate(props, Some(s), key, default) <==> LengthLimit(props, key, default) >= 0
    ensures !Validate(props, None, key, default) && !Validate(props, Some(""), key, default)
  {
    TrimIgnoresPadding(s, "", "");
    assert s + "" + "" == s;
  }

  /** With no limits configured, licenses may be 9, LOAs 7 and ECCNs 10
      characters long once trimmed. */
  lemma DefaultLimits(props: Properties, s: string)
    requires LicenseLengthKey !in props && LoaLengthKey !in props && EccnLengthKey !in props
    ensures ValidateLicense(props, s) <==> s != "" && |Trim(s)| <= 9
    ensures ValidateLoa(props, s) <==> s != "" && |Trim(s)| <= 7
    ensures ValidateEccn(props, s) <==> s != "" && |Trim(s)| <= 10
  {
  }

  /** A configured limit that parses replaces the default. */
  lemma ConfiguredLimit(props: Properties, key: string, default: int, n: int)
    requires InInt32(n)
    requires key in props && props[key] == ShowInt(n)
    ensures LengthLimit(props, key, default) == n
  {
    ParseIntShowInt(n);
    TrimNoBlankEnds(ShowInt(n));
  }

  function NonEmpty(s: string): bool {
    |s| > 0
  }

  /** The loop of `getPipeSeparatedStrings`: keep each non-empty element,
      trimmed (the emptiness test comes before trimming). */
  function TrimNonEmpty(elements: seq<string>): (r: seq<string>)
    ensures r == Map(Trim, Filter(NonEmpty, elements))
  {
    if |elements| == 0 then []
    else if NonEmpty(elements[0]) then [Trim(elements[0])] + TrimNonEmpty(elements[1..])
    else TrimNonEmpty(elements[1..])
  }

  /** `getPipeSeparatedStrings(source)`: null gives an empty list; otherwise
      the trimmed non-empty `|`-separated pieces, in order. */
  function PipeSeparated(source: Option<string>): (r: seq<string>)
    ensures source.None? ==> r == []
    ensures source.Some? ==> r == Map(Trim, Filter(NonEmpty, Pieces(source.value, '|')))
    ensures forall k :: 0 <= k < |r| ==> '|' !in r[k]
  {
    match source
    case None => []
    case Some(s) =>
      SplitKeepsNonEmpty(s, '|');
      var r := TrimNonEmpty(Split(s, '|'));
      PiecesStayPipeFree(Filter(NonEmpty, Pieces(s, '|')), Pieces(s, '|'));
      r
  }

  /** Java's dropping of trailing empty pieces never loses a non-empty one. */
  lemma SplitKeepsNonEmpty(s: string, d: char)
    ensures Filter(NonEmpty, Split(s, d)) == Filter(NonEmpty, Pieces(s, d))
  {
    var ps := Pieces(s, d);
    var r := Split(s, d);
    assert ps == r + ps[|r|..];
    FilterAppend(NonEmpty, r, ps[|r|..]);
    AllEmptyFiltered(ps[|r|..]);
  }

  lemma {:induction false} AllEmptyFiltered(ps: seq<string>)
    requires forall k :: 0 <= k < |ps| ==> ps[k] == ""
    ensures Filter(NonEmpty, ps) == []
  {
    if |ps| > 0 {
      AllEmptyFiltered(ps[1..]);
    }
  }

  /** Kept pieces contain no `|`, and trimming does not add one. */
  lemma PiecesStayPipeFree(kept: seq<string>, ps: seq<string>)
    requires kept == Filter(NonEmpty, ps)
    requires forall k :: 0 <= k < |ps| ==> '|' !in ps[k]
    ensures forall k :: 0 <= k < |kept| ==> '|' !in Map(Trim, kept)[k]
  {
    forall k | 0 <= k < |kept| ensures '|' !in Map(Trim, kept)[k] {
      FilterMembership(NonEmpty, ps, kept[k]);
      TrimKeepsCharacters(kept[k], '|');
    }
  }
}
